=== FILE: README.md ===
# Split'n'Beam / Beam Up Date: the tick choreographer

This project models the per-second tick handlers of two Pebble watchfaces
and proves properties of them:

- Split'n'Beam (`src/splitnbeam.c`, the current variant);
- Beam Up Date (`src/BeamUpDate.c`, the original variant it is based on);
- the `parseHHMMSS` debugging helper of `src/customtime.h`.

Each handler is a pure step function. It takes the persistent state and a
broken-down time sample, and returns the new state and the list of calls it
makes into the host, in call order.

Each host call is an `Effect`:

- animate a layer's frame from one rectangle to another, with a duration and a
  delay;
- set a layer's text;
- show or hide a layer.

The two variants differ in what they remember:

- Split'n'Beam keeps one *pending* flag per digit slot. At second 59 a digit
  that is about to change *animates in*: its inverter mask grows and the digit
  slides away. That sets the flag. At second 0 a digit *animates out*: it
  slides back and the mask shrinks. This happens only when the flag is set,
  and it clears the flag. Animate-ins run only from 08:00 on; an animate-out
  runs whenever its flag is set.
- Beam Up Date keeps the digits on screen and the digits last animated back
  (`prev`). At second 59 it advances the digits to the next minute's and
  animates in every slot that differs from `prev`. At second 0 it recomputes
  the digits from the clock. It animates out every slot that still differs
  and catches `prev` up. Its digits are read back from `strftime`'s `%H:%M` or
  `%I:%M` text, so the host's 12h/24h setting is a parameter of the tick.

Modules:

- `Clock`: the fields of `struct tm` that the handlers read, and "one minute
  later" as far as `mktime` matters for the digits.
- `Digits`: the four digit slots, and digit extraction by division and
  remainder. It also models the `%H`/`%I` conversion of `strftime`
  (section 7.27.3.5 of ISO C11) as arithmetic on the hour, plus digit
  characters.
- `Scene`: rectangles, layers and effects. It holds the animate-in and
  animate-out pairs, parameterised by each variant's resting Y and mask
  height. It also holds the progress-bar quadrant geometry.
- `SplitNBeam`: the tick handler, battery handler and Bluetooth handler of the
  current variant.
- `BeamUpDate`: the tick handler, `setTimeDigits`, the prediction and the
  `prev` initialisation of `window_load`.
- `CustomTime`: `parseHHMMSS` with `strncpy` into a three-byte buffer and C's
  `atoi`.

Things the handlers take from the host become parameters:

- the tick's time sample;
- the `DAY_UNIT` bit of the changed units;
- the result of `clock_is_24h_style()`;
- the battery charge state;
- the connection state;
- in `window_load`, the time from `time(0)`/`localtime`.

Beam Up Date's `DEBUG` switch is a parameter of the build.

The animations are counted per slot:

- `Reveals` is how often a slot's mask-growing animation appears in a list of
  effects.
- `Hides` is how often its mask-shrinking animation appears.

The two central theorems are about these counts:

- `SplitNBeam.RunNeverOverAnswers`: over any sequence of ticks whatsoever
  (gaps, time jumps, repeated seconds), the animate-outs of a slot never
  exceed its animate-ins.
  Equality does not hold in general: a second 59 that is not followed by a
  second 0 leaves the flag set, and a later second 59 animates in again.
- `BeamUpDate.RunBalanced`: Beam Up Date has no flag. Its balance holds only
  for gap-free runs under one clock setting that start from synchronised
  globals. Three lemmas show it failing otherwise, and a fourth shows the
  glitch of unsynchronised globals:
  - `BeamUpDate.LoadAtSecond59Orphan`: the window loads at second 59;
  - `BeamUpDate.FormatFlipOrphan`: the 12h/24h setting flips between seconds
    59 and 0;
  - `BeamUpDate.WithoutLoadOrphans`: `prev` was never synchronised and the
    first tick is a second 0, so every slot animates back without having
    gone away;
  - `BeamUpDate.WithoutLoadAllChange`: with `prev` never synchronised, the
    first second 59 animates in all four digits although only one changes.

Every pair keeps the digit and its mask together. `Aways` and `Backs` count a
slot's text slides away and back. `Scene.Paired` says a list of effects has,
per slot, as many slides away as mask reveals and as many slides back as mask
hides. Both tick handlers and both runs keep it.

Two behaviours of the code are worth stating plainly:

- The first tick's "grow from zero" bar animation is emitted *in addition to*
  the quarter-minute growth of that second, not instead of it. The first-run
  block runs before the `switch`/`if` chain and does not skip it
  (`src/splitnbeam.c:145-170`, `src/BeamUpDate.c:47-51`, `src/BeamUpDate.c:124-129`).
- Split'n'Beam never schedules an animate-out for a slot whose animate-in
  did not fire. Beam Up Date can: the orphan lemmas above show when.

## Model

| member | source | states |
|---|---|---|
| Clock.NextMinute | src/splitnbeam.c:179-181 | adding a minute through `mktime` advances the minute of the day by one, modulo a day, and stays in range |
| Clock.PlusMinute | src/BeamUpDate.c:343-345 | the sample one minute later is valid and its hour and minute are those one minute after the sample's |
| Digits.DigitsOf | src/splitnbeam.c:47-55 | the hour and minute are ten times the tens digit plus the units digit, the units are digits, and the hour tens are at most 2 and the minute tens at most 5 for a valid time |
| Digits.DigitsOfInjective | src/splitnbeam.c:47-55 | two times of day with the same four digits are the same time |
| Digits.DigitChar | src/splitnbeam.c:69-72 | `'0' + d` is a digit character that reads back as `d` |
| Digits.CharRoundTrip | src/BeamUpDate.c:310-313 | a digit character read as `c - '0'` and written back as `'0' + d` is the same character |
| Digits.Differs | src/splitnbeam.c:185-188 | per slot, whether two digit sets differ there |
| Digits.Pad2 | src/BeamUpDate.c:284 | a two-digit zero-padded field has two digit characters whose decimal value is the number |
| Digits.Pad2Inverse | src/customtime.h:14 | a two-digit field printed back from its value is the field itself |
| Digits.Hour12 | src/BeamUpDate.c:284 | the `%I` hour lies in 1..12 and agrees with the hour modulo 12 |
| Digits.DisplayHour | src/BeamUpDate.c:284 | the shown hour is the hour in 24h mode and the `%I` hour otherwise |
| Digits.StrftimeHM | src/BeamUpDate.c:283-284 | the clock text has five characters, a colon in the middle, digits elsewhere, and fields whose values are the shown hour and the minute |
| Digits.StrftimeMatchesArithmetic | src/BeamUpDate.c:281-290 | reading the four characters of the clock text back yields exactly the division/remainder digits of the shown hour and the minute |
| Digits.MidnightAndNoon | src/BeamUpDate.c:284 | midnight reads "00:00" in 24h mode and "12:00" in 12h mode, and its 12h digits are 1, 2, 0, 0; noon reads "12:00" and 13:05 reads "01:05" |
| Scene.AnimateIn | src/splitnbeam.c:108-113 | the animate-in grows the slot's mask from height 0 to the full height over 600 ms at once, then moves the digit from its resting Y to -50 over 200 ms after 700 ms |
| Scene.AnimateOut | src/splitnbeam.c:115-121 | the animate-out moves the digit from -50 back to its resting Y over 200 ms after 100 ms, then shrinks the mask from full height to 0 over 500 ms after 500 ms |
| Scene.PairsPaired | src/splitnbeam.c:108-121 | each pair slides the digit away exactly as often as it reveals the mask and back exactly as often as it hides it, for every slot |
| Scene.OutsOfAgree | src/BeamUpDate.c:98-121 | the animate-out pairs of a run of guarded calls depend only on the flags of the slots visited |
| Scene.PairedConcat | src/splitnbeam.c:156-192 | calls emitted one after another keep each slot's slides matched to its mask animations |
| Scene.Surround | src/splitnbeam.c:145-196 | wrapping a list in effects that animate no digit keeps its per-slot counts and pairing, starts with the prefix and ends with the suffix |
| Scene.InThenOutRestores | src/splitnbeam.c:108-121 | after the animate-in the digit is off screen behind a full mask; after the animate-out that follows, both are back where they started |
| Scene.OutContinuesIn | src/splitnbeam.c:108-121 | each animation of the animate-out starts at the frame where the matching animation of the animate-in left its layer |
| Scene.PairTimingHidesTheSwap | src/splitnbeam.c:123-128 | the mask is full before the digit leaves, the digit has left before the next second, and on the way back the digit rests before the mask shrinks |
| Scene.BarSpan | src/splitnbeam.c:137-141 | the quadrant's end is 36 times `sec / 15`, in 0..108 within a minute; from second 15 on the growth is one step of 36, and in the first quadrant it runs from the full width 144 to 0 |
| Scene.BarChainContinuous | src/splitnbeam.c:137-173 | the bar schedule has no jumps: each quarter starts where the previous one ended, the second-58 flourish continues from 108 to 144, and the reset starts at 144 |
| SplitNBeam.TimeTexts | src/splitnbeam.c:59-80 | exactly five text changes, on the hour tens, hour units, colon, minute tens and minute units layers in that order; each digit layer gets the character of its digit and the colon layer ":" |
| SplitNBeam.Now | src/splitnbeam.c:47-55 | the digits of a valid sample are digits, with hour tens at most 2 and minute tens at most 5, and tens and units read back as the sample's hour and minute |
| SplitNBeam.Next | src/splitnbeam.c:179-184 | the digits one minute later are in the same ranges, and the minute of the day they read is one past the sample's, modulo 1440 |
| SplitNBeam.DayName | src/splitnbeam.c:82 | the German weekday name for `tm_wday`: capitalised, 6 to 10 letters, and "Sonntag" exactly for day 0 |
| SplitNBeam.DayNamesDistinct | src/splitnbeam.c:82 | different weekdays get different German names, and the week starts on Sunday |
| SplitNBeam.DateString | src/splitnbeam.c:87-88 | the date text is six characters "DD.MM.": digit characters at 0, 1, 3 and 4 whose values are the day of month and the 1-based month, and dots at 2 and 5 |
| SplitNBeam.DateTexts | src/splitnbeam.c:84-98 | the date layer gets "DD.MM." with the day of month and the 1-based month, all four digit positions being digit characters, then the day layer gets the German name of the weekday, and no digit animates |
| SplitNBeam.AnimationEnabled | src/splitnbeam.c:102-106 | animations are enabled exactly from 08:00 until midnight |
| SplitNBeam.AnimateLayerIn | src/splitnbeam.c:108-113 | emits the mask growth from 0 to 95 (600 ms, no delay) and the digit's move from 43 to -50 (200 ms after 700 ms) at the slot's x; the slot animates in once, no other slot animates, the slides match the mask, and exactly this slot's flag becomes set |
| SplitNBeam.AnimateLayerOut | src/splitnbeam.c:115-121 | with the flag clear nothing happens; with it set it emits the digit's move from -50 to 43 (200 ms after 100 ms) and the mask shrink from 95 to 0 (500 ms after 500 ms), the slot animates out once and its flag is cleared; no other slot is touched |
| SplitNBeam.AnimateOutIdempotent | src/splitnbeam.c:115-121 | a second animate-out of the same slot does nothing, so there is at most one animate-out per animate-in |
| SplitNBeam.InAll | src/splitnbeam.c:185-188 | the guarded animateLayerIn calls emit whole pairs, at most one per visited slot; they only ever set flags; when no digit changes they do nothing |
| SplitNBeam.InAllSpec | src/splitnbeam.c:183-188 | a slot's flag ends set iff it was set or the slot is visited and its digit changes; each visited slot that changes animates in exactly once; the slides match the mask animations |
| SplitNBeam.InAllEffects | src/splitnbeam.c:185-188 | the animateLayerIn calls emit the animate-in pairs of exactly the slots whose digit changes, in the order hour tens, hour units, minute tens, minute units of the slot list, and nothing else, whatever the flags |
| SplitNBeam.OutAllEffects | src/splitnbeam.c:161-164 | over distinct slots, the animateLayerOut calls emit the animate-out pairs of exactly the flagged slots, in list order, and nothing else |
| SplitNBeam.OutAll | src/splitnbeam.c:161-164 | the animateLayerOut calls emit whole pairs, at most one per visited slot; they only ever clear flags; when nothing is owed they do nothing |
| SplitNBeam.OutAllSpec | src/splitnbeam.c:161-164 | every visited slot's flag is cleared, and each visited slot animates out exactly once if its flag was set and not at all otherwise; the slides match the mask animations |
| SplitNBeam.OutAllEverySlot | src/splitnbeam.c:161-164 | the four animateLayerOut calls clear every flag and animate out exactly the flagged slots, with matched slides |
| SplitNBeam.PayDebts | src/splitnbeam.c:157-170 | the effects are the given texts, then the animate-out pairs of the flagged slots in slot order, then the bar reset, and nothing else; every flag ends clear, exactly the flagged slots animate out, none animates in, and the slides match the mask |
| SplitNBeam.SecondZero | src/splitnbeam.c:157-170 | at second 0 the effects are exactly the five time texts, the animate-out pairs of the flagged slots in slot order, and the bar going from 144 to 0 over 500 ms after 500 ms; every flag ends clear, exactly the flagged slots animate out, none animates in, and the slides match the mask |
| SplitNBeam.SecondFiftyNine | src/splitnbeam.c:175-191 | before 08:00 second 59 emits nothing; from 08:00 on it emits exactly the animate-in pairs of the slots whose digit changes in the next minute, in slot order; their flags are set; the slides match the mask |
| SplitNBeam.SwitchBar | src/splitnbeam.c:167-174 | at 0, 15, 30 and 45 the bar grows over the quadrant in 500 ms, after 500 ms at second 0 and at once otherwise; at 58 it goes from 108 to 144 after 1000 ms; at other seconds there is no bar command; no digit animates |
| SplitNBeam.SwitchBarAtZero | src/splitnbeam.c:167-171 | at second 0 the bar goes from the full width 144 back to 0 over 500 ms after 500 ms |
| SplitNBeam.OnSecond | src/splitnbeam.c:156-192 | the flags change only at seconds 0 and 59; a slot animates in iff second 59, from 08:00, and its digit changes, and animates out iff second 0 and its flag was set; the slides match the mask; away from seconds 0 and 59 the effects are the bar command of the second alone; at second 0 they are the time texts, the flagged slots' animate-out pairs in slot order and the bar reset; at second 59 they are the changing slots' animate-in pairs in slot order from 08:00 and nothing before; except at 59 they end with the bar command |
| SplitNBeam.IntroBar | src/splitnbeam.c:145-149 | on the first run the bar grows from 0 to the end of the current quadrant over 500 ms at once; otherwise nothing |
| SplitNBeam.DateUpdate | src/splitnbeam.c:194-196 | when the day changed, the date texts; otherwise nothing |
| SplitNBeam.TickIsSwitch | src/splitnbeam.c:130-197 | after the first run and without a day change, a tick emits exactly the `switch`'s effects, takes its flags and keeps the battery width |
| SplitNBeam.TickEffects | src/splitnbeam.c:145-196 | the effects of a tick animate in and out per slot as the `switch` decides, with matched slides, start with the intro bar on the first run, and end with the second's bar command and the date texts |
| SplitNBeam.Tick | src/splitnbeam.c:130-197 | after a tick the first-run flag is clear; a slot animates in iff second 59, from 08:00, and its digit changes; it animates out iff second 0 and its flag was set; the flags follow the same rule; the slides match the mask; on the first run the effects start with the intro bar; except at 59 they end with the second's bar command followed by the date texts when the day changed |
| SplitNBeam.RunPaired | src/splitnbeam.c:108-121 | over any sequence of ticks each slot's slides away equal its mask reveals and its slides back equal its mask hides |
| SplitNBeam.RunNeverOverAnswers | src/splitnbeam.c:108-121 | over any sequence of ticks, a slot's animate-outs plus the debt left are at most its animate-ins plus the debt at the start |
| SplitNBeam.NoOrphanAnimateOut | src/splitnbeam.c:145-191 | from window creation, every prefix of any tick sequence has no more animate-outs of a slot than animate-ins, at least one fewer while one is owed |
| SplitNBeam.SecondZeroAnswersSecond59 | src/splitnbeam.c:157-191 | with nothing owed, a second 0 after a second 59 animates out exactly the slots that animated in |
| SplitNBeam.SecondZeroCommitsFirst | src/splitnbeam.c:157-164 | at second 0 the new digits are set, right after the first run's bar if any, before any animate-out |
| SplitNBeam.ScenarioMinuteUnitsAway | src/splitnbeam.c:175-191 | 12:34:59 animates only the minute units in and leaves only their flag set |
| SplitNBeam.InAllLast | src/splitnbeam.c:183-188 | a last slot whose digit changes contributes exactly its animateLayerIn call |
| SplitNBeam.InAllAt1234 | src/splitnbeam.c:183-188 | at 12:34 the four guarded calls reduce to the animate-in of the minute units alone, leaving only its flag set |
| SplitNBeam.ScenarioMinuteUnitsBack | src/splitnbeam.c:157-170 | the following 12:35:00 shows 12:35, animates only the minute units out and resets the bar from 144 to 0 after 500 ms |
| SplitNBeam.ScenarioQuietMorning | src/splitnbeam.c:102-106 | 07:59:59 does nothing, although every digit is about to change |
| SplitNBeam.ScenarioFirstTick | src/splitnbeam.c:145-149 | a first tick at second 37 grows the bar from 0 to 72 and does nothing else |
| SplitNBeam.BatteryOffset | src/splitnbeam.c:242 | the bar width is 144 times the percentage divided by 100, rounded down, and at most 144 for a percentage up to 100 |
| SplitNBeam.BatteryOffsetMonotone | src/splitnbeam.c:242 | more charge never gives a narrower bar |
| SplitNBeam.BatteryStateHandler | src/splitnbeam.c:239-248 | three effects in order: the battery bar animates from the last width to the new one over 500 ms at once, and the new width is remembered; then the charging icon shows iff charging; then the empty icon shows iff not charging at 20% or less |
| SplitNBeam.BatteryBarContinuous | src/splitnbeam.c:241-244 | each battery animation starts at the width where the previous one ended |
| SplitNBeam.BatteryIconsExclusive | src/splitnbeam.c:246-247 | the charging and the empty icon are never both shown |
| SplitNBeam.ScenarioBatteryLow | src/splitnbeam.c:239-248 | going from 45% to 10% while not charging shrinks the bar from 64 to 14 and shows the empty icon |
| SplitNBeam.BluetoothConnectionHandler | src/splitnbeam.c:250-253 | the disconnected icon shows exactly while the connection is lost |
| BeamUpDate.GetTimeDigits | src/BeamUpDate.c:281-290 | the digits read from the clock text are the division/remainder digits of the shown hour and the minute; in 24h mode they equal Split'n'Beam's |
| BeamUpDate.AbbrevDay | src/BeamUpDate.c:293 | the `%a` weekday is three letters, capitalised, and "Sun" exactly for day 0 |
| BeamUpDate.ShownChar | src/BeamUpDate.c:310-322 | the character of a digit layer is a digit character; it reads back as the slot's digit, or under DEBUG as the slot's digit of 23:59 |
| BeamUpDate.DateLabel | src/BeamUpDate.c:293 | the date text is the three-letter weekday, a space and two digit characters whose value is the day of month |
| BeamUpDate.SetTimeDigits | src/BeamUpDate.c:299-333 | the digits and date text are recomputed and `prev` is kept; the first five effects set the hour tens, hour units, colon, minute tens and minute units layers in that order, every digit layer shows its digit (or the DEBUG character), and the date text comes last |
| BeamUpDate.DebugFaceReads2359 | src/BeamUpDate.c:316-322 | the DEBUG build shows "23:59" whatever the time, and the normal build shows exactly the clock text |
| BeamUpDate.Predict | src/BeamUpDate.c:341-347 | the predicted digits are those of the shown hour and minute one minute later |
| BeamUpDate.InChanged | src/BeamUpDate.c:59-91 | the guarded animate-ins emit whole pairs, at most one per visited slot, one per slot under DEBUG, and none when the digits equal `prev` in the normal build |
| BeamUpDate.InChangedSpec | src/BeamUpDate.c:59-91 | each visited slot animates in exactly once if its digit differs from `prev` or DEBUG is on, and not at all otherwise |
| BeamUpDate.OutChanged | src/BeamUpDate.c:92-122 | the guarded animate-outs emit whole pairs, at most one per visited slot, one per slot under DEBUG, and nothing, with `prev` unchanged, when the digits equal `prev` in the normal build |
| BeamUpDate.OutChangedSpec | src/BeamUpDate.c:92-122 | each visited slot animates out exactly once if it differs from `prev` or DEBUG is on, and `prev` ends equal to the digits on every visited slot |
| BeamUpDate.OutChangedCatchesUp | src/BeamUpDate.c:98-121 | after second 0, `prev` equals the digits |
| BeamUpDate.OutChangedCounts | src/BeamUpDate.c:98-121 | at second 0 exactly the slots that differ from `prev` (all, in DEBUG) animate out |
| BeamUpDate.SlotCommands | src/BeamUpDate.c:65-101 | a slot's animate-in grows its mask from 0 to 101 (600 ms, no delay) and moves its digit from 53 to -50 (200 ms after 700 ms); its animate-out moves the digit from -50 to 53 (200 ms after 100 ms) and shrinks the mask from 101 to 0 (500 ms after 500 ms) |
| BeamUpDate.FiringSlots | src/BeamUpDate.c:65-86 | per slot, whether its digit differs from `prev` or DEBUG is on |
| BeamUpDate.InChangedEffects | src/BeamUpDate.c:59-91 | the guarded animate-ins emit the pairs of exactly the firing slots, in list order, and nothing else |
| BeamUpDate.OutChangedEffects | src/BeamUpDate.c:92-122 | over distinct slots, the guarded animate-outs emit the pairs of exactly the slots firing against the entry `prev`, in list order, and nothing else, although each catches `prev` up as it goes |
| BeamUpDate.CatchUp | src/BeamUpDate.c:92-122 | the effects are the texts followed by the animate-out pairs of the firing slots in the order minute units, minute tens, hour units, hour tens, and nothing else; the slots that fire animate out, nothing animates in, the slides match the mask, and `prev` catches up |
| BeamUpDate.SecondFiftyNine | src/BeamUpDate.c:59-91 | second 59 replaces the digits by the prediction, keeps `prev`, and emits exactly the animate-in pairs of the slots where they differ (all in DEBUG), minute units first and hour tens last, and nothing else |
| BeamUpDate.SecondZero | src/BeamUpDate.c:92-122 | second 0 emits the texts of setTimeDigits, then exactly the animate-out pairs of the firing slots minute units first, and nothing else; sets digits and `prev` to the clock's, and animates out exactly the slots where the clock's digits differ from the old `prev`, with matched slides |
| BeamUpDate.SecondZeroShowsFirst | src/BeamUpDate.c:92-101 | at second 0 the six texts are set before any digit animates back |
| BeamUpDate.QuarterBar | src/BeamUpDate.c:124-129 | at a multiple of 15 seconds the bottom bar grows over the quadrant in 500 ms, after 500 ms at second 0 and at once otherwise; at other seconds there is no bar command; no digit animates |
| BeamUpDate.IntroBar | src/BeamUpDate.c:47-51 | on the first run the bottom bar grows from 0 to the end of the current quadrant over 500 ms at once; otherwise nothing |
| BeamUpDate.Branch | src/BeamUpDate.c:53-122 | second 58 emits only the bar from 108 to 144 over 500 ms after 1000 ms; second 59 predicts, second 0 catches `prev` up with the clock's digits, other seconds keep the state and emit nothing; the animate-in and animate-out counts per slot follow the comparisons with `prev`, with matched slides; second 59 emits exactly the firing slots' animate-ins in visiting order; second 0 rewrites the date text and emits the six texts followed by exactly the firing slots' animate-outs |
| BeamUpDate.TickState | src/BeamUpDate.c:36-122 | after any tick the first-run flag is clear; second 59 predicts and keeps `prev`; second 0 leaves `prev` equal to the clock's digits and rewrites the date text; other seconds change nothing else |
| BeamUpDate.TickEffects | src/BeamUpDate.c:36-130 | the effects of a tick animate in and out per slot as the comparisons with `prev` decide, with matched slides, start with the intro bar on the first run and end with the second's quarter bar command |
| BeamUpDate.HandleTick | src/BeamUpDate.c:36-130 | after any tick the first-run flag is clear; second 59 predicts and keeps `prev`, second 0 leaves `prev` equal to the clock's digits and rewrites the date text, and other seconds change nothing; the animate-in and animate-out counts per slot follow the comparisons with `prev`, with matched slides; on the first run the effects start with the intro bar, and they always end with the second's quarter bar command |
| BeamUpDate.HandleTickIsBranch | src/BeamUpDate.c:36-130 | a tick's effects are the first run's intro bar, then exactly the `if / else if` chain's effects, then the quarter bar; after the first run, the chain's exact lists of seconds 59 and 0 carry over to the handler |
| BeamUpDate.WindowLoad | src/BeamUpDate.c:198-207 | after loading, the digits are the clock's and `prev` equals them |
| BeamUpDate.MinuteBoundaryBalanced | src/BeamUpDate.c:59-122 | a second 0 one minute after a second 59, under one clock setting, animates back exactly the slots that went away |
| BeamUpDate.FirstMinuteQuiet | src/BeamUpDate.c:203-207 | after loading, the first second 59 animates only the slots that really change at the coming minute |
| BeamUpDate.WithoutLoadAllChange | src/BeamUpDate.c:28-31 | with the zero-initialised globals, 12:34:59 animates in all four slots although only the minute units change |
| BeamUpDate.WithoutLoadOrphans | src/BeamUpDate.c:28-31 | with the zero-initialised globals, a first tick at 12:35:00 animates all four slots back and none away |
| BeamUpDate.ScenarioNoonIn12h | src/BeamUpDate.c:284 | in 12h mode 11:59:59 and 23:59:59 both animate three slots, leaving the hour tens "1" in place |
| BeamUpDate.LoadAtSecond59Orphan | src/BeamUpDate.c:198-207 | loading at 10:04:59 makes 10:05:00 animate the minute units back although they never went away |
| BeamUpDate.NoonIn12h | src/BeamUpDate.c:284 | loaded during 11:59 or 23:59 in 12h mode, second 59 animates every slot but the hour tens |
| BeamUpDate.ElevenFiftyNine | src/BeamUpDate.c:281-290 | in 12h mode 11:59 and 23:59 both read 1, 1, 5, 9 and predict 1, 2, 0, 0 |
| BeamUpDate.FormatFlipOrphan | src/BeamUpDate.c:284 | a switch from 24h to 12h between 13:59:59 and 14:00:00 animates the hour tens back without an animate-in |
| BeamUpDate.SyncAcrossMinute | src/BeamUpDate.c:92-122 | the second 0 after a synchronised second 59 answers its animate-ins and clears the debt |
| BeamUpDate.SyncInto59 | src/BeamUpDate.c:59-91 | the second 59 after a synchronised second 58 runs up exactly as much debt as it animates in |
| BeamUpDate.SyncWithinMinute | src/BeamUpDate.c:36-58 | the other ticks of a minute keep the globals synchronised and emit no digit animation |
| BeamUpDate.TickKeepsSync | src/BeamUpDate.c:36-130 | a tick whose time of day is one second later, whatever its date fields, keeps the globals synchronised, and animate-outs plus debt after equal animate-ins plus debt before |
| BeamUpDate.RunBalanced | src/BeamUpDate.c:36-130 | over a gap-free run under one clock setting from synchronised globals, midnight included, animate-outs plus debt at the end equal animate-ins plus debt at the start |
| BeamUpDate.RunPaired | src/BeamUpDate.c:59-122 | over any run, under any clock setting and in either build, each slot's slides away equal its mask reveals and its slides back equal its mask hides |
| BeamUpDate.MidnightIsContiguous | src/BeamUpDate.c:36-130 | a run may cross midnight: the tick that carries the date from 23:59:59 to 00:00:00 of the next day follows it |
| BeamUpDate.NoOrphanAfterLoad | src/BeamUpDate.c:198-207 | from a window load at any second but 59, a gap-free run, midnight included, never animates back more than went away, and is one short exactly while a digit is away |
| Digits.ParseHM | src/BeamUpDate.c:287-290 | the four digits are the values of characters 0, 1, 3 and 4 of the clock text |
| CustomTime.AtoiTwoDigits | src/customtime.h:19-21 | `atoi` on two digits followed by any non-digit character reads their two-digit value |
| CustomTime.ParseHHMMSS | src/customtime.h:15-30 | hour, minute and second are the decimal values of characters 0-1, 3-4 and 6-7, and every other field is the base record's |
| CustomTime.FormatHHMMSS | src/customtime.h:14 | the printed time has the documented "HH:MM:SS" form |
| CustomTime.ParseFormatRoundTrip | src/customtime.h:15-30 | parsing a printed time gives back its hour, minute and second over the base record |
| CustomTime.FormatParseRoundTrip | src/customtime.h:15-30 | printing a parsed "HH:MM:SS" string gives back the string |
| CustomTime.FieldBuffers | src/customtime.h:19-27 | the hour and minute buffers hold "HH:" and "MM:" without a terminator, and the seconds buffer ends in the string's terminator |
| CustomTime.LengthMatters | src/customtime.h:26-27 | a nine-character string leaves the seconds buffer unterminated so `atoi` reads past it, and a seven-character one still parses with seconds 5 |

## Left out

- Animation execution: the model records what is scheduled, not how the host
  runs it. Easing, concurrency, and freeing the animation when it stops are
  left out, and so are the wrappers of `src/pebbleapi.h`.
- Layer, font and bitmap setup and teardown, `init`, `deinit`, `main` and
  `window_unload`: these are platform calls with no behaviour to state.
- The non-digit part of Beam Up Date's `window_load` is also platform setup
  and is left out. Only the clock text and the `prev` initialisation are
  modelled.
- `setColors` is left out, and so is `accelTapHandler`, which is compiled out
  with `#if 0`.
- The calendar-week text `KW\n%V` of Split'n'Beam's date update is left out:
  the ISO 8601 week number is a calendar library computation. The `%d.%m.`
  date and the German day name are modelled.
- `adjustTime` and the `ADJUST_TIME_TO_CUSTOM_TIME` hook are left out. They
  depend on `mktime` over whole records, a static offset and logging, and the
  hook is compiled out unless `CUSTOM_TIME` is defined.
- Clock.PlusMinute: only the minute carries into the hour and the hour wraps
  at midnight; `mktime`'s carry into the day, month and year is not modelled.
  The digits never read those fields.
- Clock.NextMinute and Clock.PlusMinute: a daylight-saving change (`tm_isdst`)
  across the added minute is not modelled; `mktime` could then move the hour
  by one, and the predicted digits would differ.
- BeamUpDate.SecondFiftyNine: the prediction's `getTimeDigits` also rewrites
  the `%a %d` date buffer with the next minute's date. The model leaves the
  date buffer unchanged at second 59, because that date needs the day carry
  above; `Branch`, `TickState` and `HandleTick` inherit this. At second 0 the buffer is rewritten and set, as modelled.
- BeamUpDate.RunBalanced: stated for the normal build only. In the DEBUG build
  every slot animates at every second 59 and second 0. `HandleTick` states
  this per tick.
- BeamUpDate.RunBalanced: runs are sequences of whole seconds 0..59, so a leap
  second 60 is not part of a gap-free run. A single tick at second 60 is
  modelled by `HandleTick` and `SplitNBeam.Tick`.
- C integer widths: every value the handlers compute is at most 144 × 100, so
  no `int` wrap-around arises and the model uses unbounded integers.
- CustomTime.ParseHHMMSS: requires the documented eight-character form. On
  other strings `strncpy`/`atoi` can read past the three-byte buffer, which is
  undefined behaviour. `LengthMatters` exhibits one such string.

=== FILE: beamupdate.dfy ===
/**
 The original variant of the watchface. Instead of pending flags it keeps the
 digits on screen and the digits last animated back ("prev"): at second 59 the
 digits are advanced to the next minute's and every slot whose digit differs
 from prev animates away; at second 0 the digits are recomputed from the clock
 and every slot that still differs from prev animates back and catches up.
 The digits are read back from `strftime`'s `%H:%M` or `%I:%M` text, so the
 host's 12h/24h setting matters.
 */
module BeamUpDate {
  import opened Clock
  import opened Digits
  import opened Scene

  /** The Y of the bottom bar. */
  const BarY := 105
  const Style := BeamStyle

  /** The order in which the handler visits the slots. */
  const SlotOrder := [MinuteUnits, MinuteTens, HourUnits, HourTens]

  /** The file's globals: the first-run flag of the handler, the current and
      the previous digits, and the date text buffer. */
  datatype State = State(firstRun: bool, digits: DigitSet, prev: DigitSet, dateText: string)

  datatype Step = Step(state: State, effects: seq<Effect>)

  /** The globals before the window is loaded. */
  const Zeros := PerSlot(0, 0, 0, 0)
  const Globals := State(true, Zeros, Zeros, "Mon 01")

  /** The handler visits every slot exactly once. */
  lemma SlotOrderComplete()
    ensures Distinct(SlotOrder)
    ensures forall s :: s in SlotOrder
  {
    forall s ensures s in SlotOrder {
      match s
      case MinuteUnits => assert SlotOrder[0] == s;
      case MinuteTens => assert SlotOrder[1] == s;
      case HourUnits => assert SlotOrder[2] == s;
      case HourTens => assert SlotOrder[3] == s;
    }
  }

  function BottomBar(w: int): Rect
  {
    Rect(0, BarY, w, 5)
  }

  // ------------------------------------------------------------------- digits

  /** getTimeDigits: the digits read back from the `%H:%M` (24h) or `%I:%M`
      (12h) text of the sample. They are the arithmetic digits of the hour
      the host shows and of the minute. */
  function GetTimeDigits(t: Tm, is24h: bool): (d: DigitSet)
    requires Valid(t)
    ensures d == DigitsOf(DisplayHour(t.hour, is24h), t.min)
    ensures AllDigits(d) && d.hourTens <= 2 && d.minuteTens <= 5
    ensures is24h ==> d == DigitsOf(t.hour, t.min)
  {
    StrftimeMatchesArithmetic(t.hour, t.min, is24h);
    ParseHM(StrftimeHM(t.hour, t.min, is24h))
  }

  /** The abbreviated weekday names `%a` prints in the C locale. */
  function AbbrevDay(wday: int): (r: string)
    requires 0 <= wday <= 6
    ensures |r| == 3 && 'A' <= r[0] <= 'Z'
    ensures wday == 0 <==> r == "Sun"
  {
    ["Sun", "Mon", "Tue", "Wed", "Thu", "Fri", "Sat"][wday]
  }

  /** `strftime(dateText, 7, "%a %d", t)`: weekday and zero-padded day of month. */
  function DateLabel(t: Tm): (r: string)
    requires Valid(t)
    ensures |r| == 6 && r[..3] == AbbrevDay(t.wday) && r[3] == ' '
    ensures IsDigitChar(r[4]) && IsDigitChar(r[5])
    ensures TwoDigitValue(r[4], r[5]) == t.mday
  {
    AbbrevDay(t.wday) + " " + Pad2(t.mday)
  }

  /** The characters the DEBUG build forces onto the face. */
  function DebugChar(s: Slot): char
  {
    match s
    case HourTens => '2'
    case HourUnits => '3'
    case MinuteTens => '5'
    case MinuteUnits => '9'
  }

  /** The character slot `s` shows for digits `d`. */
  function ShownChar(d: DigitSet, s: Slot, debug: bool): (c: char)
    requires AllDigits(d)
    ensures IsDigitChar(c)
    ensures !debug ==> CharValue(c) == d.Get(s)
    ensures debug ==> CharValue(c) == PerSlot(2, 3, 5, 9).Get(s)
  {
    if debug then DebugChar(s) else DigitChar(d.Get(s))
  }

  /** setTimeDigits: recompute digits and date text from the sample, then put
      one character per digit, the colon and the date on the text layers. */
  function SetTimeDigits(st: State, t: Tm, is24h: bool, debug: bool): (r: Step)
    requires Valid(t)
    ensures r.state == st.(digits := GetTimeDigits(t, is24h), dateText := DateLabel(t))
    ensures |r.effects| == 6 && NoDigitAnimation(r.effects)
    ensures forall i :: 0 <= i < 5 ==> r.effects[i].SetText? && r.effects[i].layer == TimeLayers[i]
    ensures forall s :: SetText(DigitText(s), [ShownChar(GetTimeDigits(t, is24h), s, debug)]) in r.effects
    ensures SetText(ColonText, ":") in r.effects
    ensures r.effects[5] == SetText(DateText, DateLabel(t))
  {
    var d := GetTimeDigits(t, is24h);
    var date := DateLabel(t);
    var e := [ SetText(DigitText(HourTens), [ShownChar(d, HourTens, debug)]),
               SetText(DigitText(HourUnits), [ShownChar(d, HourUnits, debug)]),
               SetText(ColonText, ":"),
               SetText(DigitText(MinuteTens), [ShownChar(d, MinuteTens, debug)]),
               SetText(DigitText(MinuteUnits), [ShownChar(d, MinuteUnits, debug)]),
               SetText(DateText, date) ];
    Step(st.(digits := d, dateText := date), e)
  }

  /** The DEBUG build always shows "23:59", whatever the time; the normal build
      shows the clock text the digits were read from. */
  lemma DebugFaceReads2359(t: Tm, is24h: bool)
    requires Valid(t)
    ensures [ShownChar(GetTimeDigits(t, is24h), HourTens, true), ShownChar(GetTimeDigits(t, is24h), HourUnits, true), ':',
             ShownChar(GetTimeDigits(t, is24h), MinuteTens, true), ShownChar(GetTimeDigits(t, is24h), MinuteUnits, true)]
         == StrftimeHM(23, 59, true)
    ensures [ShownChar(GetTimeDigits(t, is24h), HourTens, false), ShownChar(GetTimeDigits(t, is24h), HourUnits, false), ':',
             ShownChar(GetTimeDigits(t, is24h), MinuteTens, false), ShownChar(GetTimeDigits(t, is24h), MinuteUnits, false)]
         == StrftimeHM(t.hour, t.min, is24h)
  {
    var txt := StrftimeHM(t.hour, t.min, is24h);
    forall i | 0 <= i < 5 && i != 2 ensures DigitChar(CharValue(txt[i])) == txt[i] {
      CharRoundTrip(txt[i]);
    }
  }

  /** predictNextDigits: the digits one minute after the sample. The previous
      digits are left alone. */
  function Predict(t: Tm, is24h: bool): (d: DigitSet)
    requires Valid(t)
    ensures AllDigits(d)
    ensures d == DigitsOf(DisplayHour(NextMinute(t.hour, t.min).hour, is24h), NextMinute(t.hour, t.min).min)
  {
    GetTimeDigits(PlusMinute(t), is24h)
  }

  /** A slot animates when its digit differs from the one last animated back,
      or always in the DEBUG build. */
  predicate Fires(d: DigitSet, prev: DigitSet, debug: bool, s: Slot)
  {
    debug || d.Get(s) != prev.Get(s)
  }

  // ------------------------------------------------------ animate in and out

  /** The four guarded animate-in pairs of second 59, in slot order. */
  function InChanged(d: DigitSet, prev: DigitSet, debug: bool, slots: seq<Slot>): (r: seq<Effect>)
    ensures |r| % 2 == 0 && |r| <= 2 * |slots|
    ensures debug ==> |r| == 2 * |slots|
    ensures !debug && d == prev ==> r == []
    decreases |slots|
  {
    if |slots| == 0 then []
    else
      var s := slots[0];
      var a := if Fires(d, prev, debug, s) then AnimateIn(s, Style) else [];
      a + InChanged(d, prev, debug, slots[1..])
  }

  /** Over distinct slots, each visited slot that fires animates in exactly
      once, and nothing animates out. */
  lemma {:induction false} InChangedSpec(d: DigitSet, prev: DigitSet, debug: bool, slots: seq<Slot>)
    ensures Distinct(slots) ==> forall s :: Reveals(InChanged(d, prev, debug, slots), s, Style) == (if s in slots && Fires(d, prev, debug, s) then 1 else 0)
    ensures forall s :: Hides(InChanged(d, prev, debug, slots), s, Style) == 0
    ensures Paired(InChanged(d, prev, debug, slots), Style)
    decreases |slots|
  {
    if |slots| == 0 {
      NoDigitNoCounts([], Style);
    } else {
      var s := slots[0];
      var a := if Fires(d, prev, debug, s) then AnimateIn(s, Style) else [];
      InChangedSpec(d, prev, debug, slots[1..]);
      PairCounts(s, Style);
      PairsPaired(s, Style);
      NoDigitNoCounts([], Style);
      CountConcat(a, InChanged(d, prev, debug, slots[1..]), Style);
      PairedConcat(a, InChanged(d, prev, debug, slots[1..]), Style);
      assert Distinct(slots) ==> Distinct(slots[1..]) && s !in slots[1..];
    }
  }

  /** The previous digits and effects of second 0. */
  datatype Catch = Catch(prev: DigitSet, effects: seq<Effect>)

  /** The four guarded animate-out pairs of second 0, in slot order; each slot
      that animates catches its previous digit up with the current one. */
  function OutChanged(d: DigitSet, prev: DigitSet, debug: bool, slots: seq<Slot>): (r: Catch)
    ensures |r.effects| % 2 == 0 && |r.effects| <= 2 * |slots|
    ensures debug ==> |r.effects| == 2 * |slots|
    ensures !debug && d == prev ==> r == Catch(prev, [])
    decreases |slots|
  {
    if |slots| == 0 then Catch(prev, [])
    else
      var s := slots[0];
      var fires := Fires(d, prev, debug, s);
      var a := if fires then AnimateOut(s, Style) else [];
      var p := if fires then prev.With(s, d.Get(s)) else prev;
      var b := OutChanged(d, p, debug, slots[1..]);
      Catch(b.prev, a + b.effects)
  }

  /** Every visited slot's previous digit ends equal to the current one and
      every other keeps its own; over distinct slots each visited slot that
      fires animates out exactly once, and nothing animates in. */
  lemma {:induction false} OutChangedSpec(d: DigitSet, prev: DigitSet, debug: bool, slots: seq<Slot>)
    ensures forall s :: OutChanged(d, prev, debug, slots).prev.Get(s) == (if s in slots then d.Get(s) else prev.Get(s))
    ensures Distinct(slots) ==> forall s :: Hides(OutChanged(d, prev, debug, slots).effects, s, Style) == (if s in slots && Fires(d, prev, debug, s) then 1 else 0)
    ensures forall s :: Reveals(OutChanged(d, prev, debug, slots).effects, s, Style) == 0
    ensures Paired(OutChanged(d, prev, debug, slots).effects, Style)
    decreases |slots|
  {
    if |slots| == 0 {
      NoDigitNoCounts([], Style);
    } else {
      var s := slots[0];
      var fires := Fires(d, prev, debug, s);
      var a := if fires then AnimateOut(s, Style) else [];
      var p := if fires then prev.With(s, d.Get(s)) else prev;
      assert forall o :: o != s ==> Fires(d, p, debug, o) == Fires(d, prev, debug, o);
      OutChangedSpec(d, p, debug, slots[1..]);
      var b := OutChanged(d, p, debug, slots[1..]);
      PairCounts(s, Style);
      PairsPaired(s, Style);
      NoDigitNoCounts([], Style);
      CountConcat(a, b.effects, Style);
      PairedConcat(a, b.effects, Style);
      assert forall o :: o in slots <==> o == s || o in slots[1..];
      assert Distinct(slots) ==> Distinct(slots[1..]) && s !in slots[1..];
    }
  }

  /** Over all four slots, second 0 catches every previous digit up. */
  lemma OutChangedCatchesUp(d: DigitSet, prev: DigitSet, debug: bool)
    ensures OutChanged(d, prev, debug, SlotOrder).prev == d
  {
    SlotOrderComplete();
    OutChangedSpec(d, prev, debug, SlotOrder);
    var r := OutChanged(d, prev, debug, SlotOrder);
    assert r.prev.Get(HourTens) == d.hourTens && r.prev.Get(HourUnits) == d.hourUnits;
    assert r.prev.Get(MinuteTens) == d.minuteTens && r.prev.Get(MinuteUnits) == d.minuteUnits;
  }

  /** Over all four slots, second 0 animates back exactly the slots that fire. */
  lemma OutChangedCounts(d: DigitSet, prev: DigitSet, debug: bool)
    ensures forall s :: Hides(OutChanged(d, prev, debug, SlotOrder).effects, s, Style) == (if Fires(d, prev, debug, s) then 1 else 0)
    ensures forall s :: Reveals(OutChanged(d, prev, debug, SlotOrder).effects, s, Style) == 0
    ensures Paired(OutChanged(d, prev, debug, SlotOrder).effects, Style)
  {
    SlotOrderComplete();
    OutChangedSpec(d, prev, debug, SlotOrder);
  }

  /** Per slot, whether it animates at seconds 59 and 0. */
  function FiringSlots(d: DigitSet, prev: DigitSet, debug: bool): (r: PerSlot<bool>)
    ensures forall s :: r.Get(s) == Fires(d, prev, debug, s)
  {
    if debug then PerSlot(true, true, true, true) else Differs(d, prev)
  }

  /** The guarded animate-in pairs are those of the firing slots, in visiting
      order, and nothing else. */
  lemma {:induction false} InChangedEffects(d: DigitSet, prev: DigitSet, debug: bool, slots: seq<Slot>)
    ensures InChanged(d, prev, debug, slots) == InsOf(slots, FiringSlots(d, prev, debug), Style)
    decreases |slots|
  {
    if |slots| > 0 {
      InChangedEffects(d, prev, debug, slots[1..]);
    }
  }

  /** Over distinct slots the guarded animate-out pairs are those of the slots
      firing against the `prev` on entry, in visiting order, and nothing else:
      catching one slot up does not change whether another fires. */
  lemma {:induction false} OutChangedEffects(d: DigitSet, prev: DigitSet, debug: bool, slots: seq<Slot>)
    requires Distinct(slots)
    ensures OutChanged(d, prev, debug, slots).effects == OutsOf(slots, FiringSlots(d, prev, debug), Style)
    decreases |slots|
  {
    if |slots| > 0 {
      var s := slots[0];
      var p := if Fires(d, prev, debug, s) then prev.With(s, d.Get(s)) else prev;
      assert Distinct(slots[1..]) && s !in slots[1..];
      OutChangedEffects(d, p, debug, slots[1..]);
      OutsOfAgree(slots[1..], FiringSlots(d, p, debug), FiringSlots(d, prev, debug), Style);
    }
  }

  /** The commands of one slot's animate-in and animate-out pairs, with the
      frames, durations and delays of the four guarded blocks. */
  lemma SlotCommands(s: Slot)
    ensures AnimateIn(s, Style) == [Animate(DigitInverter(s), Rect(SlotX(s) + 14, 0, 30, 0), Rect(SlotX(s) + 14, 0, 30, 101), 600, 0),
                                    Animate(DigitText(s), Rect(SlotX(s), 53, 50, 60), Rect(SlotX(s), -50, 50, 60), 200, 700)]
    ensures AnimateOut(s, Style) == [Animate(DigitText(s), Rect(SlotX(s), -50, 50, 60), Rect(SlotX(s), 53, 50, 60), 200, 100),
                                     Animate(DigitInverter(s), Rect(SlotX(s) + 14, 0, 30, 101), Rect(SlotX(s) + 14, 0, 30, 0), 500, 500)]
  {
  }

  // --------------------------------------------------------------------- tick

  /** The branch for second 59: predict, then animate away what will change. */
  function SecondFiftyNine(st: State, t: Tm, is24h: bool, debug: bool): (r: Step)
    requires Valid(t)
    ensures r.state == st.(digits := Predict(t, is24h))
    ensures forall s :: Reveals(r.effects, s, Style) == (if Fires(Predict(t, is24h), st.prev, debug, s) then 1 else 0)
    ensures forall s :: Hides(r.effects, s, Style) == 0
    ensures Paired(r.effects, Style)
    ensures r.effects == InsOf(SlotOrder, FiringSlots(Predict(t, is24h), st.prev, debug), Style)
  {
    SlotOrderComplete();
    var d := Predict(t, is24h);
    InChangedSpec(d, st.prev, debug, SlotOrder);
    InChangedEffects(d, st.prev, debug, SlotOrder);
    Step(st.(digits := d), InChanged(d, st.prev, debug, SlotOrder))
  }

  /** The animate-outs of second 0 after the texts of `shown` are set: every
      slot that fires animates back and its previous digit catches up. */
  function CatchUp(shown: Step, prev: DigitSet, debug: bool): (r: Step)
    requires NoDigitAnimation(shown.effects)
    ensures r.state == shown.state.(prev := shown.state.digits)
    ensures forall s :: Hides(r.effects, s, Style) == (if Fires(shown.state.digits, prev, debug, s) then 1 else 0)
    ensures forall s :: Reveals(r.effects, s, Style) == 0
    ensures Paired(r.effects, Style)
    ensures StartsWith(r.effects, shown.effects)
    ensures r.effects == shown.effects + OutsOf(SlotOrder, FiringSlots(shown.state.digits, prev, debug), Style)
  {
    var d := shown.state.digits;
    var out := OutChanged(d, prev, debug, SlotOrder);
    var e := shown.effects + out.effects;
    assert out.prev == d by {
      OutChangedCatchesUp(d, prev, debug);
    }
    assert forall s :: Hides(e, s, Style) == (if Fires(d, prev, debug, s) then 1 else 0) && Reveals(e, s, Style) == 0 by {
      OutChangedCounts(d, prev, debug);
      NoDigitNoCounts(shown.effects, Style);
      CountConcat(shown.effects, out.effects, Style);
    }
    assert Paired(e, Style) by {
      OutChangedCounts(d, prev, debug);
      NoDigitNoCounts(shown.effects, Style);
      PairedConcat(shown.effects, out.effects, Style);
    }
    assert e[..|shown.effects|] == shown.effects;
    assert out.effects == OutsOf(SlotOrder, FiringSlots(d, prev, debug), Style) by {
      SlotOrderComplete();
      OutChangedEffects(d, prev, debug, SlotOrder);
    }
    Step(shown.state.(prev := d), e)
  }

  /** The branch for second 0: show the clock, then animate back what changed. */
  function SecondZero(st: State, t: Tm, is24h: bool, debug: bool): (r: Step)
    requires Valid(t)
    ensures r.state == st.(digits := GetTimeDigits(t, is24h), prev := GetTimeDigits(t, is24h), dateText := DateLabel(t))
    ensures forall s :: Hides(r.effects, s, Style) == (if Fires(GetTimeDigits(t, is24h), st.prev, debug, s) then 1 else 0)
    ensures forall s :: Reveals(r.effects, s, Style) == 0
    ensures Paired(r.effects, Style)
    ensures StartsWith(r.effects, SetTimeDigits(st, t, is24h, debug).effects)
    ensures r.effects == SetTimeDigits(st, t, is24h, debug).effects + OutsOf(SlotOrder, FiringSlots(GetTimeDigits(t, is24h), st.prev, debug), Style)
  {
    CatchUp(SetTimeDigits(st, t, is24h, debug), st.prev, debug)
  }

  /** At second 0 the new digits and the date are on the text layers before
      any digit animates back. */
  lemma SecondZeroShowsFirst(st: State, t: Tm, is24h: bool, debug: bool)
    requires Valid(t)
    ensures SecondZero(st, t, is24h, debug).effects[..6] == SetTimeDigits(st, t, is24h, debug).effects
  {
    var shown := SetTimeDigits(st, t, is24h, debug);
    var out := OutChanged(shown.state.digits, st.prev, debug, SlotOrder);
    ConcatPrefix(shown.effects, out.effects, []);
    assert shown.effects + out.effects + [] == shown.effects + out.effects;
  }

  /** The flourish of second 58: the bottom bar from 108 to the full width,
      a second late. */
  const Flourish := Animate(ProgressBar, BottomBar(108), BottomBar(BarFull), 500, 1000)

  /** The `if / else if` chain on the second. */
  function Branch(st: State, t: Tm, is24h: bool, debug: bool): (r: Step)
    requires Valid(t)
    ensures t.sec == 59 ==> r.state == st.(digits := Predict(t, is24h))
    ensures t.sec == 0 ==> r.state.digits == GetTimeDigits(t, is24h) && r.state.prev == r.state.digits
    ensures t.sec == 0 ==> r.state.dateText == DateLabel(t) && r.state.firstRun == st.firstRun
    ensures t.sec != 0 && t.sec != 59 ==> r.state == st
    ensures forall s :: Reveals(r.effects, s, Style) == (if t.sec == 59 && Fires(Predict(t, is24h), st.prev, debug, s) then 1 else 0)
    ensures forall s :: Hides(r.effects, s, Style) == (if t.sec == 0 && Fires(GetTimeDigits(t, is24h), st.prev, debug, s) then 1 else 0)
    ensures Paired(r.effects, Style)
    ensures t.sec == 59 ==> r.effects == InsOf(SlotOrder, FiringSlots(Predict(t, is24h), st.prev, debug), Style)
    ensures t.sec == 0 ==> r.effects == SetTimeDigits(st, t, is24h, debug).effects
                                        + OutsOf(SlotOrder, FiringSlots(GetTimeDigits(t, is24h), st.prev, debug), Style)
    ensures t.sec == 58 ==> r.effects == [Animate(ProgressBar, Rect(0, 105, 108, 5), Rect(0, 105, 144, 5), 500, 1000)]
    ensures t.sec !in {0, 58, 59} ==> r.effects == []
  {
    if t.sec == 58 then
      var e := [Flourish];
      NoDigitNoCounts(e, Style);
      Step(st, e)
    else if t.sec == 59 then SecondFiftyNine(st, t, is24h, debug)
    else if t.sec == 0 then SecondZero(st, t, is24h, debug)
    else
      NoDigitNoCounts([], Style);
      Step(st, [])
  }

  /** The bottom bar at a quarter-minute boundary: the growth of the current
      quadrant, after the digits have gone back at second 0. */
  function QuarterBar(sec: nat): (e: seq<Effect>)
    ensures NoDigitAnimation(e)
    ensures sec % 15 == 0 ==> e == [Animate(ProgressBar, Rect(0, 105, BarSpan(sec).from, 5), Rect(0, 105, BarSpan(sec).till, 5), 500, if sec == 0 then 500 else 0)]
    ensures sec % 15 != 0 ==> e == []
  {
    if sec % 15 == 0 then
      var span := BarSpan(sec);
      [Animate(ProgressBar, BottomBar(span.from), BottomBar(span.till), 500, if sec == 0 then 500 else 0)]
    else []
  }

  /** The growth of the bottom bar from nothing on the first tick. */
  function IntroBar(firstRun: bool, sec: nat): (e: seq<Effect>)
    ensures NoDigitAnimation(e)
    ensures firstRun ==> e == [Animate(ProgressBar, Rect(0, 105, 0, 5), Rect(0, 105, BarSpan(sec).till, 5), 500, 0)]
    ensures !firstRun ==> e == []
  {
    if firstRun then [Animate(ProgressBar, BottomBar(0), BottomBar(BarSpan(sec).till), 500, 0)] else []
  }

  /** The effects of handle_tick: the first run's bar, the `if / else if`
      chain on the second, and the quarter-minute bar. */
  function TickEffects(st: State, t: Tm, is24h: bool, debug: bool): (e: seq<Effect>)
    requires Valid(t)
    ensures forall s :: Reveals(e, s, Style) == (if t.sec == 59 && Fires(Predict(t, is24h), st.prev, debug, s) then 1 else 0)
    ensures forall s :: Hides(e, s, Style) == (if t.sec == 0 && Fires(GetTimeDigits(t, is24h), st.prev, debug, s) then 1 else 0)
    ensures Paired(e, Style)
    ensures st.firstRun ==> StartsWith(e, [Animate(ProgressBar, Rect(0, 105, 0, 5), Rect(0, 105, BarSpan(t.sec).till, 5), 500, 0)])
    ensures EndsWith(e, QuarterBar(t.sec))
  {
    var mid := Branch(st, t, is24h, debug).effects;
    assert EndsWith(mid, []) by {
      assert mid[|mid|..] == [];
    }
    Surround(IntroBar(st.firstRun, t.sec), mid, QuarterBar(t.sec), [], Style)
  }

  /** The globals after handle_tick: what the chain on the second left, with
      the first run over. */
  function TickState(st: State, t: Tm, is24h: bool, debug: bool): (r: State)
    requires Valid(t)
    ensures !r.firstRun
    ensures t.sec == 59 ==> r.digits == Predict(t, is24h) && r.prev == st.prev
    ensures t.sec == 0 ==> r.digits == GetTimeDigits(t, is24h) && r.prev == r.digits
    ensures t.sec == 0 ==> r.dateText == DateLabel(t)
    ensures t.sec != 0 && t.sec != 59 ==> r == st.(firstRun := false)
  {
    Branch(st, t, is24h, debug).state.(firstRun := false)
  }

  /** handle_tick. `is24h` is the host's clock setting at the time of the call
      and `debug` the DEBUG switch of the build. */
  function HandleTick(st: State, t: Tm, is24h: bool, debug: bool): (r: Step)
    requires Valid(t)
    ensures !r.state.firstRun
    ensures t.sec == 59 ==> r.state.digits == Predict(t, is24h) && r.state.prev == st.prev
    ensures t.sec == 0 ==> r.state.digits == GetTimeDigits(t, is24h) && r.state.prev == r.state.digits
    ensures t.sec == 0 ==> r.state.dateText == DateLabel(t)
    ensures t.sec != 0 && t.sec != 59 ==> r.state == st.(firstRun := false)
    ensures forall s :: Reveals(r.effects, s, Style) == (if t.sec == 59 && Fires(Predict(t, is24h), st.prev, debug, s) then 1 else 0)
    ensures forall s :: Hides(r.effects, s, Style) == (if t.sec == 0 && Fires(GetTimeDigits(t, is24h), st.prev, debug, s) then 1 else 0)
    ensures Paired(r.effects, Style)
    ensures st.firstRun ==> StartsWith(r.effects, [Animate(ProgressBar, Rect(0, 105, 0, 5), Rect(0, 105, BarSpan(t.sec).till, 5), 500, 0)])
    ensures EndsWith(r.effects, QuarterBar(t.sec))
  {
    Step(TickState(st, t, is24h, debug), TickEffects(st, t, is24h, debug))
  }

  /** After the first tick, handle_tick emits exactly what the chain on the
      second emits, followed by the quarter-minute bar; so the exact lists of
      seconds 59 and 0, texts before animate-outs, carry over to the handler. */
  lemma HandleTickIsBranch(st: State, t: Tm, is24h: bool, debug: bool)
    requires Valid(t)
    ensures HandleTick(st, t, is24h, debug).effects == IntroBar(st.firstRun, t.sec) + Branch(st, t, is24h, debug).effects + QuarterBar(t.sec)
    ensures !st.firstRun ==> HandleTick(st, t, is24h, debug).effects == Branch(st, t, is24h, debug).effects + QuarterBar(t.sec)
  {
    if !st.firstRun {
      assert IntroBar(false, t.sec) == [];
      assert [] + Branch(st, t, is24h, debug).effects == Branch(st, t, is24h, debug).effects;
    }
  }

  /** window_load, as far as the digits go: show the clock, then mark every
      digit as already animated so the first minute does not change them all. */
  function WindowLoad(t: Tm, is24h: bool, debug: bool): (r: Step)
    requires Valid(t)
    ensures r.state.firstRun
    ensures r.state.digits == GetTimeDigits(t, is24h) && r.state.prev == r.state.digits
    ensures NoDigitAnimation(r.effects)
  {
    var shown := SetTimeDigits(Globals, t, is24h, debug);
    Step(shown.state.(prev := shown.state.digits), shown.effects)
  }

  // ------------------------------------------------------------ minute pairs

  /** A second-0 tick that follows its second-59 tick, under one clock setting,
      animates back exactly the slots that went away, and leaves the previous
      digits equal to the ones shown. */
  lemma MinuteBoundaryBalanced(st: State, t59: Tm, t0: Tm, is24h: bool, debug: bool, s: Slot)
    requires Valid(t59) && Valid(t0) && t59.sec == 59 && t0.sec == 0
    requires HourMin(t0.hour, t0.min) == NextMinute(t59.hour, t59.min)
    ensures Hides(HandleTick(HandleTick(st, t59, is24h, debug).state, t0, is24h, debug).effects, s, Style)
         == Reveals(HandleTick(st, t59, is24h, debug).effects, s, Style)
  {
    assert GetTimeDigits(t0, is24h) == Predict(t59, is24h);
  }

  /** Because window_load synchronises the previous digits, the first second 59
      animates only the slots that really change at the coming minute. */
  lemma FirstMinuteQuiet(t: Tm, t59: Tm, is24h: bool, s: Slot)
    requires Valid(t) && Valid(t59) && t59.sec == 59
    requires t59.hour == t.hour && t59.min == t.min
    ensures Reveals(HandleTick(WindowLoad(t, is24h, false).state, t59, is24h, false).effects, s, Style)
         == (if Predict(t59, is24h).Get(s) != GetTimeDigits(t59, is24h).Get(s) then 1 else 0)
  {
    assert GetTimeDigits(t, is24h) == GetTimeDigits(t59, is24h);
  }

  /** Without the synchronisation every slot whose next digit is not 0
      animates in at the first second 59, whether or not it changes: at
      12:34:59 all four slots do, although only the minute units change. */
  lemma WithoutLoadAllChange(s: Slot)
    ensures Valid(Sample(12, 34, 59))
    ensures Predict(Sample(12, 34, 59), true) == PerSlot(1, 2, 3, 5)
    ensures Reveals(HandleTick(Globals, Sample(12, 34, 59), true, false).effects, s, Style) == 1
  {
    assert Valid(Sample(12, 34, 59));
  }

  /** Without the synchronisation a first tick at a second 0 animates back
      every slot whose digit is not 0, none of which went away: at 12:35:00
      all four slots slide back. */
  lemma WithoutLoadOrphans(s: Slot)
    ensures Valid(Sample(12, 35, 0))
    ensures GetTimeDigits(Sample(12, 35, 0), true) == PerSlot(1, 2, 3, 5)
    ensures Hides(HandleTick(Globals, Sample(12, 35, 0), true, false).effects, s, Style) == 1
    ensures Reveals(HandleTick(Globals, Sample(12, 35, 0), true, false).effects, s, Style) == 0
  {
    assert Valid(Sample(12, 35, 0));
  }

  /** In 12-hour mode the minute before 12:00 changes the hour units from 1 to
      2 but keeps the hour tens: three slots animate. */
  lemma ScenarioNoonIn12h(s: Slot)
    ensures Valid(Sample(11, 59, 59)) && Valid(Sample(23, 59, 59))
    ensures Reveals(HandleTick(WindowLoad(Sample(11, 59, 10), false, false).state, Sample(11, 59, 59), false, false).effects, s, Style)
         == (if s == HourTens then 0 else 1)
    ensures Reveals(HandleTick(WindowLoad(Sample(23, 59, 10), false, false).state, Sample(23, 59, 59), false, false).effects, s, Style)
         == (if s == HourTens then 0 else 1)
  {
    assert Valid(Sample(11, 59, 10)) && Valid(Sample(23, 59, 10));
    assert Valid(Sample(11, 59, 59)) && Valid(Sample(23, 59, 59));
    NoonIn12h(Sample(11, 59, 10), Sample(11, 59, 59), s);
    NoonIn12h(Sample(23, 59, 10), Sample(23, 59, 59), s);
  }

  /** In 12-hour mode, loaded during 11:59 or 23:59, the face animates all
      slots but the hour tens at second 59. */
  lemma NoonIn12h(t: Tm, t59: Tm, s: Slot)
    requires Valid(t) && Valid(t59) && t59.sec == 59
    requires t59.hour == t.hour && t59.min == t.min && t.hour % 12 == 11 && t.min == 59
    ensures Reveals(HandleTick(WindowLoad(t, false, false).state, t59, false, false).effects, s, Style)
         == (if s == HourTens then 0 else 1)
  {
    ElevenFiftyNine(t59);
    FirstMinuteQuiet(t, t59, false, s);
  }

  /** In 12-hour mode 11:59 and 23:59 both read "11:59" and predict "12:00". */
  lemma ElevenFiftyNine(t: Tm)
    requires Valid(t) && t.hour % 12 == 11 && t.min == 59
    ensures GetTimeDigits(t, false) == PerSlot(1, 1, 5, 9)
    ensures Predict(t, false) == PerSlot(1, 2, 0, 0)
  {
    assert DisplayHour(t.hour, false) == 11;
    var n := NextMinute(t.hour, t.min);
    assert n.hour % 12 == 0 && n.min == 0;
    assert DisplayHour(n.hour, false) == 12;
  }

  /** Loading at second 59 of a minute skips that minute's animate-in; the
      tick at second 0 then animates the minute units back although they never
      went away. */
  lemma LoadAtSecond59Orphan()
    ensures Valid(Sample(10, 4, 59)) && Valid(Sample(10, 5, 0))
    ensures Hides(HandleTick(WindowLoad(Sample(10, 4, 59), true, false).state, Sample(10, 5, 0), true, false).effects, MinuteUnits, Style) == 1
  {
    assert Valid(Sample(10, 4, 59)) && Valid(Sample(10, 5, 0));
    assert GetTimeDigits(Sample(10, 4, 59), true) == PerSlot(1, 0, 0, 4);
    assert GetTimeDigits(Sample(10, 5, 0), true) == PerSlot(1, 0, 0, 5);
  }

  /** Switching the host from 24h to 12h between 13:59:59 and 14:00:00 makes
      the hour tens animate back without having gone away: the prediction read
      "14:00", the clock then reads "02:00". */
  lemma FormatFlipOrphan()
    ensures Valid(Sample(13, 59, 59)) && Valid(Sample(14, 0, 0))
    ensures Reveals(HandleTick(WindowLoad(Sample(13, 59, 30), true, false).state, Sample(13, 59, 59), true, false).effects, HourTens, Style) == 0
    ensures Hides(HandleTick(HandleTick(WindowLoad(Sample(13, 59, 30), true, false).state, Sample(13, 59, 59), true, false).state,
                             Sample(14, 0, 0), false, false).effects, HourTens, Style) == 1
  {
    assert Valid(Sample(13, 59, 30)) && Valid(Sample(13, 59, 59)) && Valid(Sample(14, 0, 0));
    assert GetTimeDigits(Sample(13, 59, 30), true) == PerSlot(1, 3, 5, 9);
    assert Predict(Sample(13, 59, 59), true) == PerSlot(1, 4, 0, 0);
    assert GetTimeDigits(Sample(14, 0, 0), false) == PerSlot(0, 2, 0, 0);
  }

  // --------------------------------------------------------------------- runs

  /** The handler applied to a sequence of samples under one clock setting. */
  function Run(st: State, times: seq<Tm>, is24h: bool, debug: bool): (r: Step)
    requires forall i :: 0 <= i < |times| ==> Valid(times[i])
    ensures |times| > 0 ==> !r.state.firstRun
    ensures |times| == 0 ==> r == Step(st, [])
    decreases |times|
  {
    if |times| == 0 then Step(st, [])
    else
      var a := HandleTick(st, times[0], is24h, debug);
      var b := Run(a.state, times[1..], is24h, debug);
      Step(b.state, a.effects + b.effects)
  }

  /** Over any run, under any clock setting and in either build, a slot's
      digit slides away as often as its mask is revealed and slides back as
      often as its mask is hidden. */
  lemma {:induction false} RunPaired(st: State, times: seq<Tm>, is24h: bool, debug: bool)
    requires forall i :: 0 <= i < |times| ==> Valid(times[i])
    ensures Paired(Run(st, times, is24h, debug).effects, Style)
    decreases |times|
  {
    if |times| == 0 {
      NoDigitNoCounts([], Style);
    } else {
      var a := HandleTick(st, times[0], is24h, debug);
      assert forall i :: 0 <= i < |times[1..]| ==> Valid(times[1..][i]) by {
        forall i | 0 <= i < |times[1..]| ensures Valid(times[1..][i]) {
          assert times[1..][i] == times[i + 1];
        }
      }
      RunPaired(a.state, times[1..], is24h, debug);
      PairedConcat(a.effects, Run(a.state, times[1..], is24h, debug).effects, Style);
    }
  }

  /** The samples arrive once a second, without gaps, after `t`: each one's
      time of day is one second after the previous one's, while the date may
      carry at midnight. */
  predicate Contiguous(t: Tm, times: seq<Tm>)
  {
    && Valid(t) && t.sec <= 59
    && (forall i :: 0 <= i < |times| ==> Valid(times[i]) && times[i].sec <= 59)
    && (|times| > 0 ==> OneSecondLater(t, times[0]))
    && (forall i :: 0 < i < |times| ==> OneSecondLater(times[i - 1], times[i]))
  }

  /** A run may cross midnight: the tick after Saturday 23:59:59 that carries
      the day to Sunday the 11th follows it. */
  lemma MidnightIsContiguous()
    ensures Valid(Sample(23, 59, 59))
    ensures Contiguous(Sample(23, 59, 59), [Tm(0, 0, 0, 11, 9, 126, 0, 283, 0)])
  {
    assert Valid(Sample(23, 59, 59));
  }

  /** The globals agree with the clock at sample `t`: the previous digits are
      the minute's digits, and the current digits are too, except that at
      second 59 they have been advanced to the next minute's. */
  predicate Synced(st: State, t: Tm, is24h: bool)
    requires Valid(t)
  {
    && st.prev == GetTimeDigits(t, is24h)
    && st.digits == (if t.sec == 59 then Predict(t, is24h) else GetTimeDigits(t, is24h))
  }

  /** The animate-out owed for slot `s`: one while its digit differs from prev. */
  function DigitDebt(st: State, s: Slot): nat
  {
    if st.digits.Get(s) != st.prev.Get(s) then 1 else 0
  }

  /** The tick at second 0 that follows a synchronised second 59 answers its
      animate-ins and clears the debt. */
  lemma SyncAcrossMinute(st: State, t: Tm, u: Tm, is24h: bool, s: Slot)
    requires Valid(t) && t.sec == 59 && Synced(st, t, is24h)
    requires OneSecondLater(t, u)
    ensures Synced(HandleTick(st, u, is24h, false).state, u, is24h)
    ensures Hides(HandleTick(st, u, is24h, false).effects, s, Style) + DigitDebt(HandleTick(st, u, is24h, false).state, s)
         == Reveals(HandleTick(st, u, is24h, false).effects, s, Style) + DigitDebt(st, s)
  {
    assert GetTimeDigits(u, is24h) == Predict(t, is24h);
  }

  /** The tick at second 59 that follows a synchronised second 58 runs up as
      much debt as it animates in. */
  lemma SyncInto59(st: State, t: Tm, u: Tm, is24h: bool, s: Slot)
    requires Valid(t) && t.sec == 58 && Synced(st, t, is24h)
    requires OneSecondLater(t, u)
    ensures Synced(HandleTick(st, u, is24h, false).state, u, is24h)
    ensures Hides(HandleTick(st, u, is24h, false).effects, s, Style) + DigitDebt(HandleTick(st, u, is24h, false).state, s)
         == Reveals(HandleTick(st, u, is24h, false).effects, s, Style) + DigitDebt(st, s)
  {
    assert GetTimeDigits(u, is24h) == GetTimeDigits(t, is24h);
    assert Predict(u, is24h) == Predict(t, is24h);
  }

  /** Any other tick inside a minute changes neither digits nor counts. */
  lemma SyncWithinMinute(st: State, t: Tm, u: Tm, is24h: bool, s: Slot)
    requires Valid(t) && t.sec < 58 && Synced(st, t, is24h)
    requires OneSecondLater(t, u)
    ensures Synced(HandleTick(st, u, is24h, false).state, u, is24h)
    ensures Hides(HandleTick(st, u, is24h, false).effects, s, Style) + DigitDebt(HandleTick(st, u, is24h, false).state, s)
         == Reveals(HandleTick(st, u, is24h, false).effects, s, Style) + DigitDebt(st, s)
  {
    assert GetTimeDigits(u, is24h) == GetTimeDigits(t, is24h);
  }

  /** One tick a second after a synchronised sample keeps the globals
      synchronised and balances animate-outs against animate-ins and debt. */
  lemma TickKeepsSync(st: State, t: Tm, u: Tm, is24h: bool, s: Slot)
    requires Valid(t) && t.sec <= 59 && Synced(st, t, is24h)
    requires OneSecondLater(t, u)
    ensures Synced(HandleTick(st, u, is24h, false).state, u, is24h)
    ensures Hides(HandleTick(st, u, is24h, false).effects, s, Style) + DigitDebt(HandleTick(st, u, is24h, false).state, s)
         == Reveals(HandleTick(st, u, is24h, false).effects, s, Style) + DigitDebt(st, s)
  {
    if t.sec == 59 {
      SyncAcrossMinute(st, t, u, is24h, s);
    } else if t.sec == 58 {
      SyncInto59(st, t, u, is24h, s);
    } else {
      SyncWithinMinute(st, t, u, is24h, s);
    }
  }

  /** Over any gap-free run of ticks that starts from synchronised globals,
      every animate-out answers an animate-in: the animate-outs plus the debt
      left at the end equal the animate-ins plus the debt at the start. */
  lemma {:induction false} RunBalanced(st: State, t: Tm, times: seq<Tm>, is24h: bool, s: Slot)
    requires Contiguous(t, times) && Synced(st, t, is24h)
    ensures Hides(Run(st, times, is24h, false).effects, s, Style) + DigitDebt(Run(st, times, is24h, false).state, s)
         == Reveals(Run(st, times, is24h, false).effects, s, Style) + DigitDebt(st, s)
    decreases |times|
  {
    if |times| > 0 {
      var a := HandleTick(st, times[0], is24h, false);
      TickKeepsSync(st, t, times[0], is24h, s);
      assert Contiguous(times[0], times[1..]) by {
        forall i | 0 < i < |times[1..]| ensures OneSecondLater(times[1..][i - 1], times[1..][i]) {
          assert times[1..][i] == times[i + 1];
        }
      }
      RunBalanced(a.state, times[0], times[1..], is24h, s);
      var b := Run(a.state, times[1..], is24h, false);
      CountConcat(a.effects, b.effects, Style);
    }
  }

  /** From a window load at any second but 59, a gap-free run under one clock
      setting never animates a digit back that did not go away: animate-outs
      never exceed animate-ins, and fall short by one exactly while a digit is
      away. */
  lemma NoOrphanAfterLoad(t: Tm, times: seq<Tm>, is24h: bool, s: Slot)
    requires Contiguous(t, times) && t.sec != 59
    ensures Hides(Run(WindowLoad(t, is24h, false).state, times, is24h, false).effects, s, Style)
            + DigitDebt(Run(WindowLoad(t, is24h, false).state, times, is24h, false).state, s)
         == Reveals(Run(WindowLoad(t, is24h, false).state, times, is24h, false).effects, s, Style)
  {
    RunBalanced(WindowLoad(t, is24h, false).state, t, times, is24h, s);
  }
}

=== FILE: clock.dfy ===
/**
 The slice of C's `struct tm` that the watchface reads, and the one piece of
 `mktime` normalisation its digit prediction relies on: adding a minute.
 */
module Clock {

  /** A broken-down time sample as delivered by the tick service. */
  datatype Tm = Tm(
    sec: int,
    min: int,
    hour: int,
    mday: int,
    mon: int,
    year: int,
    wday: int,
    yday: int,
    isdst: int)

  /** The ranges section 7.27.1 of ISO C11 gives the fields the core reads
      (`tm_sec` may be 60 for a leap second). */
  predicate Valid(t: Tm)
  {
    && 0 <= t.sec <= 60
    && 0 <= t.min <= 59
    && 0 <= t.hour <= 23
    && 1 <= t.mday <= 31
    && 0 <= t.mon <= 11
    && 0 <= t.wday <= 6
  }

  /** A sample on Saturday 10 October 2026 at the given time of day. */
  function Sample(hour: int, min: int, sec: int): Tm
  {
    Tm(sec, min, hour, 10, 9, 126, 6, 282, 0)
  }

  /** Minutes elapsed since midnight. */
  function MinuteOfDay(hour: int, min: int): int
  {
    hour * 60 + min
  }

  datatype HourMin = HourMin(hour: nat, min: nat)

  /** `tm_min += 1; mktime(&t)` as far as hour and minute are concerned:
      the minute carries into the hour, and the hour wraps at midnight. */
  function NextMinute(hour: nat, min: nat): (r: HourMin)
    requires hour <= 23 && min <= 59
    ensures r.hour <= 23 && r.min <= 59
    ensures MinuteOfDay(r.hour, r.min) == (MinuteOfDay(hour, min) + 1) % 1440
  {
    if min < 59 then HourMin(hour, min + 1)
    else if hour < 23 then HourMin(hour + 1, 0)
    else HourMin(0, 0)
  }

  /** The sample one minute later, as `tm_min += 1; mktime(&t)` leaves the
      fields the digits are read from. Only hour and minute are normalised:
      the day carry at midnight is not modelled. */
  function PlusMinute(t: Tm): (r: Tm)
    requires Valid(t)
    ensures Valid(r)
    ensures HourMin(r.hour, r.min) == NextMinute(t.hour, t.min)
    ensures r.sec == t.sec && r.wday == t.wday && r.mday == t.mday
  {
    var n := NextMinute(t.hour, t.min);
    t.(hour := n.hour, min := n.min)
  }

  /** The sample one second later, for samples before a leap second. */
  function NextSecond(t: Tm): (r: Tm)
    requires Valid(t) && t.sec <= 59
    ensures Valid(r) && r.sec <= 59
    ensures r.sec == (t.sec + 1) % 60
    ensures t.sec < 59 ==> r.hour == t.hour && r.min == t.min
    ensures t.sec == 59 ==> HourMin(r.hour, r.min) == NextMinute(t.hour, t.min)
  {
    if t.sec < 59 then t.(sec := t.sec + 1) else PlusMinute(t).(sec := 0)
  }

  /** `u` is a sample taken one second after `t`: its second, minute and hour
      are those of `NextSecond(t)`, while its date fields are free, so the day,
      weekday and month may carry at midnight as `mktime` would have them. */
  predicate OneSecondLater(t: Tm, u: Tm)
    requires Valid(t) && t.sec <= 59
  {
    && Valid(u)
    && u.sec == NextSecond(t).sec
    && u.min == NextSecond(t).min
    && u.hour == NextSecond(t).hour
  }
}

=== FILE: customtime.dfy ===
/**
 The debugging aid that replaces the clock's hour, minute and second with
 those of a fixed "HH:MM:SS" string. Each field is copied into a three-byte
 buffer with `strncpy` and read with `atoi`; everything else is taken from a
 base record.
 */
module CustomTime {
  import opened Clock
  import opened Digits

  /** A C string as the model sees it: reading at or past its length yields
      the terminating NUL. */
  function At(s: string, i: nat): char
  {
    if i < |s| then s[i] else '\0'
  }

  /** `strncpy(tmp, src + off, n)` for a string without embedded NULs: the `n`
      characters from `off` on, NUL-padded once the source ends, and not
      NUL-terminated when the source is longer. */
  function Strncpy(src: string, off: nat, n: nat): (r: seq<char>)
    ensures |r| == n
    ensures forall i :: 0 <= i < n ==> r[i] == At(src, off + i)
  {
    seq(n, i requires 0 <= i => At(src, off + i))
  }

  /** `isspace` in the C locale. */
  predicate IsSpace(c: char)
  {
    c == ' ' || 9 <= c as int <= 13
  }

  /** The index of the first non-space at or after `i`. */
  function SkipSpace(buf: seq<char>, i: nat): (j: nat)
    requires i <= |buf|
    ensures i <= j <= |buf|
    ensures forall k :: i <= k < j ==> IsSpace(buf[k])
    ensures j == |buf| || !IsSpace(buf[j])
    decreases |buf| - i
  {
    if i == |buf| || !IsSpace(buf[i]) then i else SkipSpace(buf, i + 1)
  }

  /** The index of the first non-digit at or after `i`. */
  function DigitEnd(buf: seq<char>, i: nat): (j: nat)
    requires i <= |buf|
    ensures i <= j <= |buf|
    ensures forall k :: i <= k < j ==> IsDigitChar(buf[k])
    ensures j == |buf| || !IsDigitChar(buf[j])
    decreases |buf| - i
  {
    if i == |buf| || !IsDigitChar(buf[i]) then i else DigitEnd(buf, i + 1)
  }

  /** The decimal value of a run of digit characters, most significant first. */
  function DecimalValue(ds: seq<char>): (n: int)
    requires forall k :: 0 <= k < |ds| ==> IsDigitChar(ds[k])
    ensures 0 <= n
    decreases |ds|
  {
    if |ds| == 0 then 0
    else
      assert IsDigitChar(ds[|ds| - 1]);
      10 * DecimalValue(ds[..|ds| - 1]) + CharValue(ds[|ds| - 1])
  }

  /** One or two digits read as their decimal value. */
  lemma {:induction false} DecimalValueShort(a: char, b: char)
    requires IsDigitChar(a) && IsDigitChar(b)
    ensures DecimalValue([a]) == CharValue(a)
    ensures DecimalValue([a, b]) == TwoDigitValue(a, b)
  {
    assert [a][..0] == [];
    assert [a, b][..1] == [a];
  }

  /** What `atoi` makes of a buffer: a value, or a read past the buffer's end
      when the scan finds no character to stop at inside it. */
  datatype Scan = Value(n: int) | Overread

  /** `atoi` on a buffer of `|buf|` bytes: leading white space, an optional
      sign, then as many digits as follow. */
  function Atoi(buf: seq<char>): (r: Scan)
    ensures r.Value? ==> exists k :: 0 <= k < |buf| && !IsDigitChar(buf[k])
  {
    var i := SkipSpace(buf, 0);
    if i == |buf| then Overread
    else
      var neg := buf[i] == '-';
      var j := if buf[i] == '-' || buf[i] == '+' then i + 1 else i;
      var k := DigitEnd(buf, j);
      if k == |buf| then Overread
      else
        var v := DecimalValue(buf[j..k]);
        Value(if neg then -v else v)
  }

  /** Two digits followed by any non-digit character read as their two-digit
      value. */
  lemma {:induction false} AtoiTwoDigits(buf: seq<char>)
    requires |buf| == 3 && IsDigitChar(buf[0]) && IsDigitChar(buf[1]) && !IsDigitChar(buf[2])
    ensures Atoi(buf) == Value(TwoDigitValue(buf[0], buf[1]))
  {
    assert SkipSpace(buf, 0) == 0;
    assert DigitEnd(buf, 0) == 2 by {
      assert DigitEnd(buf, 2) == 2;
      assert DigitEnd(buf, 1) == DigitEnd(buf, 2);
    }
    assert buf[0..2] == [buf[0], buf[1]];
    DecimalValueShort(buf[0], buf[1]);
  }

  /** The documented input format "HH:MM:SS". */
  predicate IsHHMMSS(s: string)
  {
    && |s| == 8
    && s[2] == ':' && s[5] == ':'
    && forall i :: 0 <= i < 8 && i != 2 && i != 5 ==> IsDigitChar(s[i])
  }

  /** The three-byte buffer each field is copied into. */
  const FieldWidth := 3

  /** parseHHMMSS: the base record with hour, minute and second read from the
      three two-digit fields of the string. */
  function ParseHHMMSS(base: Tm, s: string): (r: Tm)
    requires IsHHMMSS(s)
    ensures r.hour == TwoDigitValue(s[0], s[1])
    ensures r.min == TwoDigitValue(s[3], s[4])
    ensures r.sec == TwoDigitValue(s[6], s[7])
    ensures r.(hour := base.hour, min := base.min, sec := base.sec) == base
  {
    var hh := Strncpy(s, 0, FieldWidth);
    var mm := Strncpy(s, 3, FieldWidth);
    var ss := Strncpy(s, 6, FieldWidth);
    AtoiTwoDigits(hh);
    AtoiTwoDigits(mm);
    AtoiTwoDigits(ss);
    base.(hour := Atoi(hh).n, min := Atoi(mm).n, sec := Atoi(ss).n)
  }

  /** The string that names a time of day, as "HH:MM:SS". */
  function FormatHHMMSS(hour: nat, min: nat, sec: nat): (s: string)
    requires hour <= 99 && min <= 99 && sec <= 99
    ensures IsHHMMSS(s)
  {
    Pad2(hour) + ":" + Pad2(min) + ":" + Pad2(sec)
  }

  /** Parsing a formatted time gives back its hour, minute and second. */
  lemma ParseFormatRoundTrip(base: Tm, hour: nat, min: nat, sec: nat)
    requires hour <= 99 && min <= 99 && sec <= 99
    ensures ParseHHMMSS(base, FormatHHMMSS(hour, min, sec)) == base.(hour := hour, min := min, sec := sec)
  {
  }

  /** Formatting a parsed time gives back the string. */
  lemma FormatParseRoundTrip(base: Tm, s: string)
    requires IsHHMMSS(s)
    ensures ParseHHMMSS(base, s).hour <= 99 && ParseHHMMSS(base, s).min <= 99 && ParseHHMMSS(base, s).sec <= 99
    ensures FormatHHMMSS(ParseHHMMSS(base, s).hour, ParseHHMMSS(base, s).min, ParseHHMMSS(base, s).sec) == s
  {
    var r := ParseHHMMSS(base, s);
    Pad2Inverse(s[0], s[1]);
    Pad2Inverse(s[3], s[4]);
    Pad2Inverse(s[6], s[7]);
    assert s == [s[0], s[1]] + ":" + [s[3], s[4]] + ":" + [s[6], s[7]];
  }

  /** The hour and minute buffers are not NUL-terminated ("HH:" and "MM:"):
      `atoi` stops at the colon. Only the seconds buffer ends in the string's
      terminator. */
  lemma FieldBuffers(s: string)
    requires IsHHMMSS(s)
    ensures Strncpy(s, 0, FieldWidth) == [s[0], s[1], ':']
    ensures Strncpy(s, 3, FieldWidth) == [s[3], s[4], ':']
    ensures Strncpy(s, 6, FieldWidth) == [s[6], s[7], '\0']
  {
  }

  /** A string one character too long leaves the seconds buffer unterminated
      and `atoi` reads past it; a string one character short still parses, the
      lone seconds digit read as a number. */
  lemma LengthMatters()
    ensures Atoi(Strncpy("12:34:567", 6, FieldWidth)) == Overread
    ensures Atoi(Strncpy("12:34:5", 6, FieldWidth)) == Value(5)
  {
    var long := Strncpy("12:34:567", 6, FieldWidth);
    assert long == ['5', '6', '7'];
    assert DigitEnd(long, 0) == 3;
    var short := Strncpy("12:34:5", 6, FieldWidth);
    assert short == ['5', '\0', '\0'];
    assert DigitEnd(short, 0) == 1;
    assert short[0..1] == ['5'];
    DecimalValueShort('5', '0');
  }
}

=== FILE: digits.dfy ===
/**
 The digit model: the four digit slots of the face, the two ways the variants
 derive their values from the hour and minute (integer arithmetic, and the
 `%H:%M` / `%I:%M` text of `strftime` read back character by character), and
 the decimal characters shown on screen.
 */
module Digits {

  /** The four digit positions, hour tens to minute units. */
  datatype Slot = HourTens | HourUnits | MinuteTens | MinuteUnits

  /** One value per slot. */
  datatype PerSlot<T> = PerSlot(hourTens: T, hourUnits: T, minuteTens: T, minuteUnits: T) {

    function Get(s: Slot): T
    {
      match s
      case HourTens => hourTens
      case HourUnits => hourUnits
      case MinuteTens => minuteTens
      case MinuteUnits => minuteUnits
    }

    /** This record with slot `s` replaced by `v`. */
    function With(s: Slot, v: T): (r: PerSlot<T>)
      ensures r.Get(s) == v
      ensures forall o :: o != s ==> r.Get(o) == Get(o)
    {
      match s
      case HourTens => this.(hourTens := v)
      case HourUnits => this.(hourUnits := v)
      case MinuteTens => this.(minuteTens := v)
      case MinuteUnits => this.(minuteUnits := v)
    }
  }

  type DigitSet = PerSlot<int>

  predicate IsDigit(n: int)
  {
    0 <= n <= 9
  }

  predicate AllDigits(d: DigitSet)
  {
    forall s :: IsDigit(d.Get(s))
  }

  /** A sequence of slots naming each slot at most once. */
  predicate Distinct(slots: seq<Slot>)
  {
    forall i, j :: 0 <= i < j < |slots| ==> slots[i] != slots[j]
  }

  /** Per slot, whether the two digit sets differ there. */
  function Differs(a: DigitSet, b: DigitSet): (r: PerSlot<bool>)
    ensures forall s :: r.Get(s) == (a.Get(s) != b.Get(s))
  {
    PerSlot(a.hourTens != b.hourTens, a.hourUnits != b.hourUnits, a.minuteTens != b.minuteTens, a.minuteUnits != b.minuteUnits)
  }

  /** Digits by integer division and remainder, as splitnbeam's getTimeDigits
      computes them. Hour and minute are non-negative, so C's truncating
      division agrees with Dafny's. */
  function DigitsOf(hour: nat, min: nat): (d: DigitSet)
    ensures d.hourTens >= 0 && IsDigit(d.hourUnits) && 10 * d.hourTens + d.hourUnits == hour
    ensures d.minuteTens >= 0 && IsDigit(d.minuteUnits) && 10 * d.minuteTens + d.minuteUnits == min
    ensures hour <= 23 ==> d.hourTens <= 2
    ensures min <= 59 ==> d.minuteTens <= 5
    ensures hour <= 99 && min <= 99 ==> AllDigits(d)
  {
    PerSlot(hour / 10, hour % 10, min / 10, min % 10)
  }

  /** Two times of day with the same digits are the same time of day. */
  lemma DigitsOfInjective(h1: nat, m1: nat, h2: nat, m2: nat)
    requires DigitsOf(h1, m1) == DigitsOf(h2, m2)
    ensures h1 == h2 && m1 == m2
  {
    var d1 := DigitsOf(h1, m1);
    assert h1 == 10 * d1.hourTens + d1.hourUnits;
    assert m1 == 10 * d1.minuteTens + d1.minuteUnits;
  }

  // ---------------------------------------------------------------- characters

  predicate IsDigitChar(c: char)
  {
    '0' <= c <= '9'
  }

  /** `c - '0'` */
  function CharValue(c: char): int
  {
    c as int - '0' as int
  }

  /** `'0' + d` */
  function DigitChar(d: int): (c: char)
    requires IsDigit(d)
    ensures IsDigitChar(c)
    ensures CharValue(c) == d
  {
    ('0' as int + d) as char
  }

  /** A digit character read back gives the character itself. */
  lemma {:induction false} CharRoundTrip(c: char)
    requires IsDigitChar(c)
    ensures DigitChar(CharValue(c)) == c
  {
    assert (('0' as int + (c as int - '0' as int)) as char) == c;
  }

  /** The value of a two-character decimal field. */
  function TwoDigitValue(hi: char, lo: char): int
  {
    10 * CharValue(hi) + CharValue(lo)
  }

  /** A zero-padded two-digit decimal field, as `%02d`, `%H`, `%I`, `%M` print one. */
  function Pad2(n: nat): (s: string)
    requires n <= 99
    ensures |s| == 2 && IsDigitChar(s[0]) && IsDigitChar(s[1])
    ensures TwoDigitValue(s[0], s[1]) == n
  {
    [DigitChar(n / 10), DigitChar(n % 10)]
  }

  /** A two-digit field printed back from its value is the field itself. */
  lemma Pad2Inverse(hi: char, lo: char)
    requires IsDigitChar(hi) && IsDigitChar(lo)
    ensures TwoDigitValue(hi, lo) <= 99
    ensures Pad2(TwoDigitValue(hi, lo)) == [hi, lo]
  {
    var n := TwoDigitValue(hi, lo);
    DigitDecomposition(n, CharValue(hi), CharValue(lo));
    CharRoundTrip(hi);
    CharRoundTrip(lo);
  }

  // ------------------------------------------------------------- strftime view

  /** The hour `%I` prints: midnight and noon are 12, otherwise the hour mod 12. */
  function Hour12(hour: nat): (h: nat)
    ensures 1 <= h <= 12
    ensures h % 12 == hour % 12
  {
    if hour % 12 == 0 then 12 else hour % 12
  }

  /** The hour shown on the face under the host's clock format. */
  function DisplayHour(hour: nat, is24h: bool): (h: nat)
    requires hour <= 23
    ensures h <= 23
    ensures is24h ==> h == hour
    ensures !is24h ==> 1 <= h <= 12 && h % 12 == hour % 12
  {
    if is24h then hour else Hour12(hour)
  }

  /** `strftime(txt, 6, is24h ? "%H:%M" : "%I:%M", t)` (section 7.27.3.5 of ISO C11). */
  function StrftimeHM(hour: nat, min: nat, is24h: bool): (txt: string)
    requires hour <= 23 && min <= 59
    ensures |txt| == 5 && txt[2] == ':'
    ensures forall i :: 0 <= i < 5 && i != 2 ==> IsDigitChar(txt[i])
    ensures TwoDigitValue(txt[0], txt[1]) == DisplayHour(hour, is24h)
    ensures TwoDigitValue(txt[3], txt[4]) == min
  {
    Pad2(DisplayHour(hour, is24h)) + ":" + Pad2(min)
  }

  /** BeamUpDate's `txt[0] - '0'`, `txt[1] - '0'`, `txt[3] - '0'`, `txt[4] - '0'`. */
  function ParseHM(txt: string): (d: DigitSet)
    requires |txt| == 5
    ensures d.Get(HourTens) == CharValue(txt[0]) && d.Get(HourUnits) == CharValue(txt[1])
    ensures d.Get(MinuteTens) == CharValue(txt[3]) && d.Get(MinuteUnits) == CharValue(txt[4])
  {
    PerSlot(CharValue(txt[0]), CharValue(txt[1]), CharValue(txt[3]), CharValue(txt[4]))
  }

  /** Reading the formatted clock text back yields exactly the arithmetic
      digits of the displayed hour and the minute, in both clock formats. */
  lemma StrftimeMatchesArithmetic(hour: nat, min: nat, is24h: bool)
    requires hour <= 23 && min <= 59
    ensures ParseHM(StrftimeHM(hour, min, is24h)) == DigitsOf(DisplayHour(hour, is24h), min)
  {
    var txt := StrftimeHM(hour, min, is24h);
    var d := ParseHM(txt);
    var h := DisplayHour(hour, is24h);
    assert 10 * d.hourTens + d.hourUnits == h;
    assert 10 * d.minuteTens + d.minuteUnits == min;
    DigitDecomposition(h, d.hourTens, d.hourUnits);
    DigitDecomposition(min, d.minuteTens, d.minuteUnits);
  }

  /** A decimal split into a digit and a remainder is unique. */
  lemma DigitDecomposition(n: nat, hi: int, lo: int)
    requires 0 <= hi && IsDigit(lo) && 10 * hi + lo == n
    ensures hi == n / 10 && lo == n % 10
  {
  }

  /** The host's display convention: 24h midnight reads "00", 12h midnight and
      noon read "12", and 13:05 reads "01:05" in 12-hour mode. */
  lemma MidnightAndNoon()
    ensures StrftimeHM(0, 0, true) == "00:00"
    ensures StrftimeHM(0, 0, false) == "12:00"
    ensures StrftimeHM(12, 0, false) == "12:00"
    ensures StrftimeHM(13, 5, false) == "01:05"
    ensures ParseHM(StrftimeHM(0, 0, false)) == PerSlot(1, 2, 0, 0)
  {
    assert StrftimeHM(0, 0, true) == Pad2(0) + ":" + Pad2(0);
  }
}

=== FILE: scene.dfy ===
/**
 What the tick handlers ask of the host: rectangles, the layers they move, and
 the effects they emit (an animation of a layer's frame from one rectangle to
 another with a duration and a delay, a text change, a visibility change).
 Also the digit animate-in / animate-out pairs and the progress-bar geometry,
 which both variants share up to a few per-variant constants.
 */
module Scene {
  import opened Digits

  datatype Rect = Rect(x: int, y: int, w: int, h: int)

  datatype Layer =
    | DigitText(slot: Slot)
    | DigitInverter(slot: Slot)
    | ColonText
    | DateText
    | DayText
    | ProgressBar
    | BatteryBar
    | ChargingIcon
    | EmptyIcon
    | BluetoothIcon

  /** The text layers of the clock, in the order both variants set them. */
  const TimeLayers := [DigitText(HourTens), DigitText(HourUnits), ColonText, DigitText(MinuteTens), DigitText(MinuteUnits)]

  /** One call into the host, in the order the handler makes it. */
  datatype Effect =
    | Animate(layer: Layer, from: Rect, to: Rect, durationMs: int, delayMs: int)
    | SetText(layer: Layer, text: string)
    | SetVisible(layer: Layer, visible: bool)

  // ------------------------------------------------------------ digit geometry

  /** The left edge of each digit's text layer. */
  function SlotX(s: Slot): int
  {
    match s
    case HourTens => -12
    case HourUnits => 22
    case MinuteTens => 64
    case MinuteUnits => 98
  }

  const InverterOffset := 14
  const InverterWidth := 30
  const OffscreenY := -50

  /** The per-variant constants of a digit slot: the resting Y of the text and
      the full height of the inverter mask behind it. */
  datatype Style = Style(restY: int, invHeight: int)

  const SplitStyle := Style(43, 95)
  const BeamStyle := Style(53, 101)

  function TextFrame(s: Slot, y: int): Rect
  {
    Rect(SlotX(s), y, 50, 60)
  }

  function InverterFrame(s: Slot, h: int): Rect
  {
    Rect(SlotX(s) + InverterOffset, 0, InverterWidth, h)
  }

  /** The mask grows from nothing to full height. */
  function Reveal(s: Slot, st: Style): Effect
  {
    Animate(DigitInverter(s), InverterFrame(s, 0), InverterFrame(s, st.invHeight), 600, 0)
  }

  /** The digit leaves upwards, off screen. */
  function SlideAway(s: Slot, st: Style): Effect
  {
    Animate(DigitText(s), TextFrame(s, st.restY), TextFrame(s, OffscreenY), 200, 700)
  }

  /** The digit comes back to rest. */
  function SlideBack(s: Slot, st: Style): Effect
  {
    Animate(DigitText(s), TextFrame(s, OffscreenY), TextFrame(s, st.restY), 200, 100)
  }

  /** The mask shrinks back to nothing. */
  function Hide(s: Slot, st: Style): Effect
  {
    Animate(DigitInverter(s), InverterFrame(s, st.invHeight), InverterFrame(s, 0), 500, 500)
  }

  /** The animate-in pair: reveal the mask, then slide the digit away. */
  function AnimateIn(s: Slot, st: Style): (e: seq<Effect>)
    ensures |e| == 2 && e[0].Animate? && e[1].Animate?
    ensures e[0].layer == DigitInverter(s) && e[0].from.h == 0 && e[0].to.h == st.invHeight
    ensures e[0].from.x == e[0].to.x == SlotX(s) + InverterOffset && e[0].durationMs == 600 && e[0].delayMs == 0
    ensures e[1].layer == DigitText(s) && e[1].from.y == st.restY && e[1].to.y == OffscreenY
    ensures e[1].from.x == e[1].to.x == SlotX(s) && e[1].durationMs == 200 && e[1].delayMs == 700
  {
    [Reveal(s, st), SlideAway(s, st)]
  }

  /** The animate-out pair: slide the digit back, then hide the mask. */
  function AnimateOut(s: Slot, st: Style): (e: seq<Effect>)
    ensures |e| == 2 && e[0].Animate? && e[1].Animate?
    ensures e[0].layer == DigitText(s) && e[0].from.y == OffscreenY && e[0].to.y == st.restY
    ensures e[0].from.x == e[0].to.x == SlotX(s) && e[0].durationMs == 200 && e[0].delayMs == 100
    ensures e[1].layer == DigitInverter(s) && e[1].from.h == st.invHeight && e[1].to.h == 0
    ensures e[1].from.x == e[1].to.x == SlotX(s) + InverterOffset && e[1].durationMs == 500 && e[1].delayMs == 500
  {
    [SlideBack(s, st), Hide(s, st)]
  }

  /** The effects of a run of guarded animate-in calls: the animate-in pair of
      every slot of `slots` flagged in `firing`, in the order of `slots`, and
      nothing else. */
  function InsOf(slots: seq<Slot>, firing: PerSlot<bool>, st: Style): seq<Effect>
    decreases |slots|
  {
    if |slots| == 0 then []
    else (if firing.Get(slots[0]) then AnimateIn(slots[0], st) else []) + InsOf(slots[1..], firing, st)
  }

  /** The effects of a run of guarded animate-out calls, likewise. */
  function OutsOf(slots: seq<Slot>, firing: PerSlot<bool>, st: Style): seq<Effect>
    decreases |slots|
  {
    if |slots| == 0 then []
    else (if firing.Get(slots[0]) then AnimateOut(slots[0], st) else []) + OutsOf(slots[1..], firing, st)
  }

  /** Only the flags of the visited slots matter. */
  lemma {:induction false} OutsOfAgree(slots: seq<Slot>, f: PerSlot<bool>, g: PerSlot<bool>, st: Style)
    requires forall s :: s in slots ==> f.Get(s) == g.Get(s)
    ensures OutsOf(slots, f, st) == OutsOf(slots, g, st)
    decreases |slots|
  {
    if |slots| > 0 {
      assert slots[0] in slots;
      assert forall s :: s in slots[1..] ==> s in slots;
      OutsOfAgree(slots[1..], f, g, st);
    }
  }

  /** How often `e` occurs in `effs`. */
  function Count(effs: seq<Effect>, e: Effect): nat
    decreases |effs|
  {
    if |effs| == 0 then 0
    else Count(effs[..|effs| - 1], e) + (if effs[|effs| - 1] == e then 1 else 0)
  }

  /** How often the animate-in of slot `s` occurs in `effs`. */
  function Reveals(effs: seq<Effect>, s: Slot, st: Style): nat
  {
    Count(effs, Reveal(s, st))
  }

  /** How often the animate-out of slot `s` occurs in `effs`. */
  function Hides(effs: seq<Effect>, s: Slot, st: Style): nat
  {
    Count(effs, Hide(s, st))
  }

  /** Counting distributes over concatenation. */
  lemma {:induction false} CountAppend(a: seq<Effect>, b: seq<Effect>, e: Effect)
    ensures Count(a + b, e) == Count(a, e) + Count(b, e)
    decreases |b|
  {
    if |b| == 0 {
      assert a + b == a;
    } else {
      assert (a + b)[..|a + b| - 1] == a + b[..|b| - 1];
      CountAppend(a, b[..|b| - 1], e);
    }
  }

  /** Counting animate-ins and animate-outs distributes over concatenation. */
  lemma CountConcat(a: seq<Effect>, b: seq<Effect>, st: Style)
    ensures forall s :: Reveals(a + b, s, st) == Reveals(a, s, st) + Reveals(b, s, st)
    ensures forall s :: Hides(a + b, s, st) == Hides(a, s, st) + Hides(b, s, st)
  {
    forall s ensures Reveals(a + b, s, st) == Reveals(a, s, st) + Reveals(b, s, st)
                 && Hides(a + b, s, st) == Hides(a, s, st) + Hides(b, s, st) {
      CountAppend(a, b, Reveal(s, st));
      CountAppend(a, b, Hide(s, st));
    }
  }

  /** A pair of effects holds `x` as often as its two members are `x`. */
  lemma CountPair(a: Effect, b: Effect, x: Effect)
    ensures Count([a, b], x) == (if a == x then 1 else 0) + (if b == x then 1 else 0)
  {
    assert [a, b][..1] == [a];
    assert [a][..0] == [];
    assert Count([a], x) == Count([], x) + (if a == x then 1 else 0);
    assert Count([a, b], x) == Count([a], x) + (if b == x then 1 else 0);
  }

  /** The animate-in pair holds its own slot's animate-in once and nothing
      else that is counted; the animate-out pair likewise. */
  lemma PairCounts(s: Slot, st: Style)
    ensures forall o :: Reveals(AnimateIn(s, st), o, st) == (if o == s then 1 else 0)
    ensures forall o :: Hides(AnimateIn(s, st), o, st) == 0
    ensures forall o :: Hides(AnimateOut(s, st), o, st) == (if o == s then 1 else 0)
    ensures forall o :: Reveals(AnimateOut(s, st), o, st) == 0
  {
    forall o
      ensures Reveals(AnimateIn(s, st), o, st) == (if o == s then 1 else 0)
      ensures Hides(AnimateIn(s, st), o, st) == 0
      ensures Hides(AnimateOut(s, st), o, st) == (if o == s then 1 else 0)
      ensures Reveals(AnimateOut(s, st), o, st) == 0
    {
      CountPair(Reveal(s, st), SlideAway(s, st), Reveal(o, st));
      CountPair(Reveal(s, st), SlideAway(s, st), Hide(o, st));
      CountPair(SlideBack(s, st), Hide(s, st), Hide(o, st));
      CountPair(SlideBack(s, st), Hide(s, st), Reveal(o, st));
      assert Reveal(o, st) == Reveal(s, st) ==> SlotX(o) == SlotX(s);
      assert Hide(o, st) == Hide(s, st) ==> SlotX(o) == SlotX(s);
    }
  }

  /** The first part of a concatenation is its prefix. */
  lemma ConcatPrefix(a: seq<Effect>, b: seq<Effect>, c: seq<Effect>)
    ensures (a + b + c)[..|a|] == a
  {
    assert a + b + c == a + (b + c);
  }

  /** The start of the middle part of a concatenation, found at its offset. */
  lemma ConcatMiddle(a: seq<Effect>, b: seq<Effect>, c: seq<Effect>, n: nat)
    requires n <= |b|
    ensures (a + b + c)[|a|..|a| + n] == b[..n]
  {
    var abc := a + b + c;
    assert forall i :: 0 <= i < n ==> abc[|a| + i] == b[i];
  }

  /** How often the digit of slot `s` slides away in `effs`. */
  function Aways(effs: seq<Effect>, s: Slot, st: Style): nat
  {
    Count(effs, SlideAway(s, st))
  }

  /** How often the digit of slot `s` slides back in `effs`. */
  function Backs(effs: seq<Effect>, s: Slot, st: Style): nat
  {
    Count(effs, SlideBack(s, st))
  }

  /** Every mask animation comes with its digit's slide: per slot, as many
      slides away as masks revealed and as many slides back as masks hidden. */
  predicate Paired(effs: seq<Effect>, st: Style)
  {
    forall s :: Aways(effs, s, st) == Reveals(effs, s, st) && Backs(effs, s, st) == Hides(effs, s, st)
  }

  /** Concatenating paired effects keeps them paired. */
  lemma PairedConcat(a: seq<Effect>, b: seq<Effect>, st: Style)
    requires Paired(a, st) && Paired(b, st)
    ensures Paired(a + b, st)
  {
    forall s ensures Aways(a + b, s, st) == Reveals(a + b, s, st) && Backs(a + b, s, st) == Hides(a + b, s, st) {
      CountAppend(a, b, Reveal(s, st));
      CountAppend(a, b, Hide(s, st));
      CountAppend(a, b, SlideAway(s, st));
      CountAppend(a, b, SlideBack(s, st));
      assert Aways(a, s, st) == Reveals(a, s, st) && Backs(a, s, st) == Hides(a, s, st);
      assert Aways(b, s, st) == Reveals(b, s, st) && Backs(b, s, st) == Hides(b, s, st);
    }
  }

  /** The animate-in pair and the animate-out pair are each paired. */
  lemma PairsPaired(s: Slot, st: Style)
    ensures Paired(AnimateIn(s, st), st) && Paired(AnimateOut(s, st), st)
  {
    forall o ensures Aways(AnimateIn(s, st), o, st) == Reveals(AnimateIn(s, st), o, st)
                  && Backs(AnimateIn(s, st), o, st) == Hides(AnimateIn(s, st), o, st)
                  && Aways(AnimateOut(s, st), o, st) == Reveals(AnimateOut(s, st), o, st)
                  && Backs(AnimateOut(s, st), o, st) == Hides(AnimateOut(s, st), o, st) {
      CountPair(Reveal(s, st), SlideAway(s, st), Reveal(o, st));
      CountPair(Reveal(s, st), SlideAway(s, st), Hide(o, st));
      CountPair(Reveal(s, st), SlideAway(s, st), SlideAway(o, st));
      CountPair(Reveal(s, st), SlideAway(s, st), SlideBack(o, st));
      CountPair(SlideBack(s, st), Hide(s, st), Reveal(o, st));
      CountPair(SlideBack(s, st), Hide(s, st), Hide(o, st));
      CountPair(SlideBack(s, st), Hide(s, st), SlideAway(o, st));
      CountPair(SlideBack(s, st), Hide(s, st), SlideBack(o, st));
      assert SlideAway(o, st) == SlideAway(s, st) ==> SlotX(o) == SlotX(s);
      assert SlideBack(o, st) == SlideBack(s, st) ==> SlotX(o) == SlotX(s);
      assert Reveal(o, st) == Reveal(s, st) ==> SlotX(o) == SlotX(s);
      assert Hide(o, st) == Hide(s, st) ==> SlotX(o) == SlotX(s);
    }
  }

  /** No effect in `e` animates a digit: neither its inverter mask nor its text. */
  predicate NoDigitAnimation(e: seq<Effect>)
  {
    forall i :: 0 <= i < |e| ==> !(e[i].Animate? && (e[i].layer.DigitInverter? || e[i].layer.DigitText?))
  }

  /** Effects that leave the digits alone hold no digit animation. */
  lemma {:induction false} NoDigitCount(e: seq<Effect>, x: Effect)
    requires NoDigitAnimation(e) && x.Animate? && (x.layer.DigitInverter? || x.layer.DigitText?)
    ensures Count(e, x) == 0
    decreases |e|
  {
    if |e| > 0 {
      assert NoDigitAnimation(e[..|e| - 1]);
      NoDigitCount(e[..|e| - 1], x);
    }
  }

  /** Effects that leave the digits alone contain no animate-in and no
      animate-out, and are trivially paired. */
  lemma NoDigitNoCounts(e: seq<Effect>, st: Style)
    requires NoDigitAnimation(e)
    ensures forall s :: Reveals(e, s, st) == 0 && Hides(e, s, st) == 0
    ensures Paired(e, st)
  {
    forall s ensures Reveals(e, s, st) == 0 && Hides(e, s, st) == 0 && Aways(e, s, st) == 0 && Backs(e, s, st) == 0 {
      NoDigitCount(e, Reveal(s, st));
      NoDigitCount(e, Hide(s, st));
      NoDigitCount(e, SlideAway(s, st));
      NoDigitCount(e, SlideBack(s, st));
    }
  }

  /** Wrapping effects in digit-free ones changes no count and keeps pairing. */
  lemma CountsAround(pre: seq<Effect>, mid: seq<Effect>, post: seq<Effect>, st: Style)
    requires NoDigitAnimation(pre) && NoDigitAnimation(post)
    ensures forall s :: Reveals(pre + mid + post, s, st) == Reveals(mid, s, st)
    ensures forall s :: Hides(pre + mid + post, s, st) == Hides(mid, s, st)
    ensures Paired(mid, st) ==> Paired(pre + mid + post, st)
  {
    NoDigitNoCounts(pre, st);
    NoDigitNoCounts(post, st);
    CountConcat(pre, mid, st);
    CountConcat(pre + mid, post, st);
    if Paired(mid, st) {
      PairedConcat(pre, mid, st);
      PairedConcat(pre + mid, post, st);
    }
  }

  /** `e` begins with `head`. */
  predicate StartsWith(e: seq<Effect>, head: seq<Effect>)
  {
    |head| <= |e| && e[..|head|] == head
  }

  /** `e` ends with `tail`. */
  predicate EndsWith(e: seq<Effect>, tail: seq<Effect>)
  {
    |tail| <= |e| && e[|e| - |tail|..] == tail
  }

  /** A list of effects begins with its first part, and ends with the end of
      its middle part followed by its last part. */
  lemma EndsAround(pre: seq<Effect>, mid: seq<Effect>, post: seq<Effect>, tail: seq<Effect>)
    requires EndsWith(mid, tail)
    ensures StartsWith(pre + mid + post, pre)
    ensures EndsWith(pre + mid + post, tail + post)
  {
    var e := pre + mid + post;
    assert e[..|pre|] == pre;
    assert e[|e| - |tail + post|..] == mid[|mid| - |tail|..] + post;
  }

  /** The effects `mid` between digit-free effects `pre` and `post`: the
      counts are those of `mid`, pairing is kept, and `pre` comes first while
      the end `tail` of `mid` is followed only by `post`. */
  function Surround(pre: seq<Effect>, mid: seq<Effect>, post: seq<Effect>, tail: seq<Effect>, st: Style): (e: seq<Effect>)
    requires NoDigitAnimation(pre) && NoDigitAnimation(post)
    requires EndsWith(mid, tail)
    ensures forall s :: Reveals(e, s, st) == Reveals(mid, s, st) && Hides(e, s, st) == Hides(mid, s, st)
    ensures Paired(mid, st) ==> Paired(e, st)
    ensures StartsWith(e, pre)
    ensures EndsWith(e, tail + post) && EndsWith(e, post)
  {
    CountsAround(pre, mid, post, st);
    EndsAround(pre, mid, post, tail);
    EndsAround(pre, mid, post, []);
    assert [] + post == post;
    pre + mid + post
  }

  /** The frame a layer is left at once the animations `effs` schedules on it
      have run in the order they were scheduled. */
  function EndFrame(effs: seq<Effect>, layer: Layer, start: Rect): Rect
    decreases |effs|
  {
    if |effs| == 0 then start
    else
      var e := effs[|effs| - 1];
      if e.Animate? && e.layer == layer then e.to else EndFrame(effs[..|effs| - 1], layer, start)
  }

  /** After the animate-in the digit is off screen behind a fully grown mask;
      the animate-out that follows puts both back where they started. */
  lemma InThenOutRestores(s: Slot, st: Style)
    ensures EndFrame(AnimateIn(s, st), DigitText(s), TextFrame(s, st.restY)) == TextFrame(s, OffscreenY)
    ensures EndFrame(AnimateIn(s, st), DigitInverter(s), InverterFrame(s, 0)) == InverterFrame(s, st.invHeight)
    ensures EndFrame(AnimateIn(s, st) + AnimateOut(s, st), DigitText(s), TextFrame(s, st.restY)) == TextFrame(s, st.restY)
    ensures EndFrame(AnimateIn(s, st) + AnimateOut(s, st), DigitInverter(s), InverterFrame(s, 0)) == InverterFrame(s, 0)
  {
    var io := AnimateIn(s, st) + AnimateOut(s, st);
    assert io[..3] == [Reveal(s, st), SlideAway(s, st), SlideBack(s, st)];
    assert io[..2] == AnimateIn(s, st);
  }

  /** Each animation of the animate-out starts at the frame where the
      matching animation of the animate-in left its layer. */
  lemma OutContinuesIn(s: Slot, st: Style)
    ensures AnimateOut(s, st)[0].layer == AnimateIn(s, st)[1].layer
    ensures AnimateOut(s, st)[0].from == AnimateIn(s, st)[1].to
    ensures AnimateOut(s, st)[1].layer == AnimateIn(s, st)[0].layer
    ensures AnimateOut(s, st)[1].from == AnimateIn(s, st)[0].to
  {
  }

  /** The timing the delays encode: the mask is fully grown before the digit
      starts to leave, the digit has left before the next second's text swap,
      and on the way back the digit is at rest before the mask starts to shrink. */
  lemma PairTimingHidesTheSwap(s: Slot, st: Style)
    ensures AnimateIn(s, st)[0].delayMs + AnimateIn(s, st)[0].durationMs <= AnimateIn(s, st)[1].delayMs
    ensures AnimateIn(s, st)[1].delayMs + AnimateIn(s, st)[1].durationMs <= 1000
    ensures AnimateOut(s, st)[0].delayMs + AnimateOut(s, st)[0].durationMs <= AnimateOut(s, st)[1].delayMs
  {
  }

  // -------------------------------------------------------------- progress bar

  const BarStep := 36
  const BarFull := 144

  /** The growth of the progress bar at a quarter-minute boundary: from the end
      of the previous quadrant to the end of the current one. */
  datatype Span = Span(from: int, till: int)

  /** `curQ = sec / 15`, `prevQ = curQ == 0 ? 4 : curQ - 1`, widths in steps of 36. */
  function BarSpan(sec: nat): (r: Span)
    ensures r.till == BarStep * (sec / 15)
    ensures sec <= 59 ==> 0 <= r.till <= 108
    ensures 15 <= sec ==> r.from + BarStep == r.till
    ensures sec < 15 ==> r.from == BarFull && r.till == 0
  {
    var curQ := sec / 15;
    var prevQ := if curQ == 0 then 4 else curQ - 1;
    Span(prevQ * BarStep, curQ * BarStep)
  }

  /** The bar's schedule is continuous: each quarter-minute growth starts where
      the previous one ended, the second-58 flourish continues from 108 to the
      full width, and the reset at second 0 starts from the full width. */
  lemma BarChainContinuous()
    ensures BarSpan(15).from == BarSpan(0).till
    ensures BarSpan(30).from == BarSpan(15).till
    ensures BarSpan(45).from == BarSpan(30).till
    ensures BarSpan(45).till == 108 && BarSpan(0).from == BarFull
    ensures forall sec: nat :: sec <= 59 ==> BarSpan(sec).till % BarStep == 0
  {
  }
}

=== FILE: splitnbeam.dfy ===
/**
 The current variant of the watchface. Its tick handler keeps a first-run flag
 and one pending flag per digit slot: an animate-out is owed exactly when an
 animate-in fired and has not been answered yet. Animate-ins run only from
 08:00 on; an owed animate-out runs at any hour. Battery and Bluetooth
 handlers drive a width bar and three icons.
 */
module SplitNBeam {
  import opened Clock
  import opened Digits
  import opened Scene

  /** The Y of the seconds bar (`TIMEY + 52`). */
  const SecondsBarY := 95
  const Style := SplitStyle

  /** The static variables of the handlers, promoted to one record. */
  datatype State = State(firstRun: bool, pending: PerSlot<bool>, lastBatteryOffset: int)

  datatype Step = Step(state: State, effects: seq<Effect>)

  /** The pending flags and the effects of one stretch of a handler. */
  datatype Emit = Emit(pending: PerSlot<bool>, effects: seq<Effect>)

  const NonePending := PerSlot(false, false, false, false)
  const Initial := State(true, NonePending, 0)

  /** The order in which the handler visits the slots. */
  const SlotOrder := [HourTens, HourUnits, MinuteTens, MinuteUnits]

  /** The handler visits every slot exactly once. */
  lemma SlotOrderComplete()
    ensures Distinct(SlotOrder)
    ensures forall s :: s in SlotOrder
  {
    forall s ensures s in SlotOrder {
      match s
      case HourTens => assert SlotOrder[0] == s;
      case HourUnits => assert SlotOrder[1] == s;
      case MinuteTens => assert SlotOrder[2] == s;
      case MinuteUnits => assert SlotOrder[3] == s;
    }
  }

  function SecondsBar(w: int): Rect
  {
    Rect(0, SecondsBarY, w, 5)
  }

  // -------------------------------------------------------------- digit texts

  /** updateTextLayersTime: one character per digit, and the colon. */
  function TimeTexts(d: DigitSet): (e: seq<Effect>)
    requires AllDigits(d)
    ensures |e| == |TimeLayers|
    ensures forall i :: 0 <= i < |e| ==> e[i].SetText? && e[i].layer == TimeLayers[i]
    ensures forall s :: SetText(DigitText(s), [DigitChar(d.Get(s))]) in e
    ensures SetText(ColonText, ":") in e
    ensures NoDigitAnimation(e)
  {
    assert IsDigit(d.Get(HourTens)) && IsDigit(d.Get(HourUnits));
    assert IsDigit(d.Get(MinuteTens)) && IsDigit(d.Get(MinuteUnits));
    [ SetText(DigitText(HourTens), [DigitChar(d.hourTens)]),
      SetText(DigitText(HourUnits), [DigitChar(d.hourUnits)]),
      SetText(ColonText, ":"),
      SetText(DigitText(MinuteTens), [DigitChar(d.minuteTens)]),
      SetText(DigitText(MinuteUnits), [DigitChar(d.minuteUnits)]) ]
  }

  /** The hour and minute of a valid sample, as digits. */
  function Now(t: Tm): (d: DigitSet)
    requires Valid(t)
    ensures AllDigits(d) && d.hourTens <= 2 && d.minuteTens <= 5
    ensures 10 * d.hourTens + d.hourUnits == t.hour && 10 * d.minuteTens + d.minuteUnits == t.min
  {
    DigitsOf(t.hour, t.min)
  }

  /** The digits one minute after the sample. */
  function Next(t: Tm): (d: DigitSet)
    requires Valid(t)
    ensures AllDigits(d) && d.hourTens <= 2 && d.minuteTens <= 5
    ensures MinuteOfDay(10 * d.hourTens + d.hourUnits, 10 * d.minuteTens + d.minuteUnits)
         == (MinuteOfDay(t.hour, t.min) + 1) % 1440
  {
    var n := NextMinute(t.hour, t.min);
    DigitsOf(n.hour, n.min)
  }

  // ------------------------------------------------------------- date and day

  /** DAY_NAME_GERMAN, indexed by `tm_wday` (days since Sunday). */
  function DayName(wday: int): (r: string)
    requires 0 <= wday <= 6
    ensures 6 <= |r| <= 10 && 'A' <= r[0] <= 'Z'
    ensures wday == 0 <==> r == "Sonntag"
  {
    ["Sonntag", "Montag", "Dienstag", "Mittwoch", "Donnerstag", "Freitag", "Samstag"][wday]
  }

  /** Different weekdays get different names, and the week starts on Sunday. */
  lemma DayNamesDistinct(w1: int, w2: int)
    requires 0 <= w1 <= 6 && 0 <= w2 <= 6
    ensures DayName(w1) == DayName(w2) <==> w1 == w2
    ensures DayName(0) == "Sonntag" && DayName(6) == "Samstag"
  {
  }

  /** `strftime("%d.%m.")`: zero-padded day of month and month (1-based). */
  function DateString(t: Tm): (r: string)
    requires Valid(t)
    ensures |r| == 6 && r[2] == '.' && r[5] == '.'
    ensures IsDigitChar(r[0]) && IsDigitChar(r[1]) && IsDigitChar(r[3]) && IsDigitChar(r[4])
    ensures TwoDigitValue(r[0], r[1]) == t.mday
    ensures TwoDigitValue(r[3], r[4]) == t.mon + 1
  {
    Pad2(t.mday) + "." + Pad2(t.mon + 1) + "."
  }

  /** updateTextLayersDate, without the ISO week text. */
  function DateTexts(t: Tm): (r: seq<Effect>)
    requires Valid(t)
    ensures |r| == 2 && r[0].SetText? && r[1].SetText?
    ensures r[0].layer == DateText && |r[0].text| == 6 && r[0].text[2] == '.' && r[0].text[5] == '.'
    ensures IsDigitChar(r[0].text[0]) && IsDigitChar(r[0].text[1]) && IsDigitChar(r[0].text[3]) && IsDigitChar(r[0].text[4])
    ensures TwoDigitValue(r[0].text[0], r[0].text[1]) == t.mday && TwoDigitValue(r[0].text[3], r[0].text[4]) == t.mon + 1
    ensures r[1].layer == DayText && r[1].text == ["Sonntag", "Montag", "Dienstag", "Mittwoch", "Donnerstag", "Freitag", "Samstag"][t.wday]
    ensures NoDigitAnimation(r)
  {
    [SetText(DateText, DateString(t)), SetText(DayText, DayName(t.wday))]
  }

  // ------------------------------------------------------ animate in and out

  /** Digit animations are enabled from 08:00 to midnight. */
  function AnimationEnabled(t: Tm): (r: bool)
    ensures Valid(t) ==> (r <==> 8 * 60 <= MinuteOfDay(t.hour, t.min) < 24 * 60)
  {
    t.hour >= 8
  }

  /** animateLayerIn: the animate-in pair, and an animate-out is now owed. */
  function AnimateLayerIn(p: PerSlot<bool>, s: Slot): (r: Emit)
    ensures r.effects == [Animate(DigitInverter(s), Rect(SlotX(s) + 14, 0, 30, 0), Rect(SlotX(s) + 14, 0, 30, 95), 600, 0),
                          Animate(DigitText(s), Rect(SlotX(s), 43, 50, 60), Rect(SlotX(s), -50, 50, 60), 200, 700)]
    ensures r.pending.Get(s)
    ensures forall o :: o != s ==> r.pending.Get(o) == p.Get(o)
    ensures Reveals(r.effects, s, Style) == 1
    ensures forall o :: o != s ==> Reveals(r.effects, o, Style) == 0
    ensures forall o :: Hides(r.effects, o, Style) == 0
    ensures Paired(r.effects, Style)
  {
    PairCounts(s, Style);
    PairsPaired(s, Style);
    Emit(p.With(s, true), AnimateIn(s, Style))
  }

  /** animateLayerOut: nothing unless an animate-out is owed; otherwise the
      animate-out pair, and the debt is cleared. */
  function AnimateLayerOut(p: PerSlot<bool>, s: Slot): (r: Emit)
    ensures p.Get(s) ==> r.effects == [Animate(DigitText(s), Rect(SlotX(s), -50, 50, 60), Rect(SlotX(s), 43, 50, 60), 200, 100),
                                       Animate(DigitInverter(s), Rect(SlotX(s) + 14, 0, 30, 95), Rect(SlotX(s) + 14, 0, 30, 0), 500, 500)]
    ensures !r.pending.Get(s)
    ensures forall o :: o != s ==> r.pending.Get(o) == p.Get(o)
    ensures Hides(r.effects, s, Style) == (if p.Get(s) then 1 else 0)
    ensures forall o :: o != s ==> Hides(r.effects, o, Style) == 0
    ensures forall o :: Reveals(r.effects, o, Style) == 0
    ensures !p.Get(s) ==> r == Emit(p, [])
    ensures Paired(r.effects, Style)
  {
    if !p.Get(s) then
      NoDigitNoCounts([], Style);
      Emit(p, [])
    else
      PairCounts(s, Style);
      PairsPaired(s, Style);
      Emit(p.With(s, false), AnimateOut(s, Style))
  }

  /** A second animate-out of the same slot does nothing. */
  lemma AnimateOutIdempotent(p: PerSlot<bool>, s: Slot)
    ensures AnimateLayerOut(AnimateLayerOut(p, s).pending, s) == Emit(AnimateLayerOut(p, s).pending, [])
  {
  }

  /** The four animateLayerIn calls of second 59: each slot in `slots` whose
      digit is about to change animates in. */
  function InAll(p: PerSlot<bool>, cur: DigitSet, next: DigitSet, slots: seq<Slot>): (r: Emit)
    ensures |r.effects| % 2 == 0 && |r.effects| <= 2 * |slots|
    ensures forall o :: p.Get(o) ==> r.pending.Get(o)
    ensures next == cur ==> r == Emit(p, [])
    decreases |slots|
  {
    if |slots| == 0 then Emit(p, [])
    else
      var s := slots[0];
      var a := if next.Get(s) != cur.Get(s) then AnimateLayerIn(p, s) else Emit(p, []);
      var b := InAll(a.pending, cur, next, slots[1..]);
      Emit(b.pending, a.effects + b.effects)
  }

  /** After the animateLayerIn calls a slot's flag is set iff it was set or
      the slot was visited with a changing digit; each visited slot whose
      digit changes animates in exactly once, and nothing animates out. */
  lemma {:induction false} InAllSpec(p: PerSlot<bool>, cur: DigitSet, next: DigitSet, slots: seq<Slot>)
    ensures forall s :: InAll(p, cur, next, slots).pending.Get(s) == (p.Get(s) || (s in slots && next.Get(s) != cur.Get(s)))
    ensures Distinct(slots) ==> forall s :: Reveals(InAll(p, cur, next, slots).effects, s, Style) == (if s in slots && next.Get(s) != cur.Get(s) then 1 else 0)
    ensures forall s :: Hides(InAll(p, cur, next, slots).effects, s, Style) == 0
    ensures Paired(InAll(p, cur, next, slots).effects, Style)
    decreases |slots|
  {
    if |slots| == 0 {
      NoDigitNoCounts([], Style);
    } else {
      var s := slots[0];
      var a := if next.Get(s) != cur.Get(s) then AnimateLayerIn(p, s) else Emit(p, []);
      NoDigitNoCounts([], Style);
      InAllSpec(a.pending, cur, next, slots[1..]);
      var b := InAll(a.pending, cur, next, slots[1..]);
      CountConcat(a.effects, b.effects, Style);
      PairedConcat(a.effects, b.effects, Style);
      assert forall o :: o in slots <==> o == s || o in slots[1..];
      assert Distinct(slots) ==> Distinct(slots[1..]) && s !in slots[1..];
    }
  }

  /** A slot whose digit does not change adds nothing at second 59. */
  lemma InAllSkipsUnchanged(p: PerSlot<bool>, cur: DigitSet, next: DigitSet, s: Slot, rest: seq<Slot>)
    requires next.Get(s) == cur.Get(s)
    ensures InAll(p, cur, next, [s] + rest) == InAll(p, cur, next, rest)
  {
    assert ([s] + rest)[1..] == rest;
  }

  /** The four animateLayerOut calls of second 0: every owed animate-out of a
      slot in `slots` fires and is cleared. */
  function OutAll(p: PerSlot<bool>, slots: seq<Slot>): (r: Emit)
    ensures |r.effects| % 2 == 0 && |r.effects| <= 2 * |slots|
    ensures forall o :: r.pending.Get(o) ==> p.Get(o)
    ensures (forall o :: !p.Get(o)) ==> r == Emit(p, [])
    decreases |slots|
  {
    if |slots| == 0 then Emit(p, [])
    else
      var a := AnimateLayerOut(p, slots[0]);
      var b := OutAll(a.pending, slots[1..]);
      Emit(b.pending, a.effects + b.effects)
  }

  /** After the animateLayerOut calls no visited slot owes anything; each
      visited slot that owed an animate-out animates out exactly once, the
      others not at all, and nothing animates in. */
  lemma {:induction false} OutAllSpec(p: PerSlot<bool>, slots: seq<Slot>)
    ensures forall s :: OutAll(p, slots).pending.Get(s) == (p.Get(s) && s !in slots)
    ensures forall s :: Hides(OutAll(p, slots).effects, s, Style) == (if p.Get(s) && s in slots then 1 else 0)
    ensures forall s :: Reveals(OutAll(p, slots).effects, s, Style) == 0
    ensures Paired(OutAll(p, slots).effects, Style)
    decreases |slots|
  {
    if |slots| == 0 {
      NoDigitNoCounts([], Style);
    } else {
      var a := AnimateLayerOut(p, slots[0]);
      OutAllSpec(a.pending, slots[1..]);
      var b := OutAll(a.pending, slots[1..]);
      assert forall s :: s in slots <==> s == slots[0] || s in slots[1..];
      CountConcat(a.effects, b.effects, Style);
      PairedConcat(a.effects, b.effects, Style);
    }
  }

  /** The animateLayerIn calls emit the animate-in pairs of the slots whose
      digit changes, in visiting order, and nothing else, whatever the flags. */
  lemma {:induction false} InAllEffects(p: PerSlot<bool>, cur: DigitSet, next: DigitSet, slots: seq<Slot>)
    ensures InAll(p, cur, next, slots).effects == InsOf(slots, Differs(next, cur), Style)
    decreases |slots|
  {
    if |slots| > 0 {
      var s := slots[0];
      var a := if next.Get(s) != cur.Get(s) then AnimateLayerIn(p, s) else Emit(p, []);
      InAllEffects(a.pending, cur, next, slots[1..]);
    }
  }

  /** The animateLayerOut calls over distinct slots emit the animate-out pairs
      of the flagged slots, in visiting order, and nothing else. */
  lemma {:induction false} OutAllEffects(p: PerSlot<bool>, slots: seq<Slot>)
    requires Distinct(slots)
    ensures OutAll(p, slots).effects == OutsOf(slots, p, Style)
    decreases |slots|
  {
    if |slots| > 0 {
      var s := slots[0];
      var a := AnimateLayerOut(p, s);
      assert Distinct(slots[1..]) && s !in slots[1..];
      OutAllEffects(a.pending, slots[1..]);
      OutsOfAgree(slots[1..], a.pending, p, Style);
    }
  }

  /** The slot order, peeled one slot at a time. */
  lemma SlotOrderSplits()
    ensures [HourTens] + [HourUnits, MinuteTens, MinuteUnits] == SlotOrder
    ensures [HourUnits] + [MinuteTens, MinuteUnits] == [HourUnits, MinuteTens, MinuteUnits]
    ensures [MinuteTens] + [MinuteUnits] == [MinuteTens, MinuteUnits]
    ensures [MinuteUnits][1..] == []
  {
  }

  /** A slot that owes nothing adds nothing at second 0. */
  lemma OutAllSkipsIdle(p: PerSlot<bool>, s: Slot, rest: seq<Slot>)
    requires !p.Get(s)
    ensures OutAll(p, [s] + rest) == OutAll(p, rest)
  {
    assert ([s] + rest)[1..] == rest;
  }

  // --------------------------------------------------------------------- tick

  /** At second 59, slot `s` is about to show a different digit. */
  predicate Changes(t: Tm, s: Slot)
    requires Valid(t)
  {
    Next(t).Get(s) != Now(t).Get(s)
  }

  /** The seconds-bar command of the `switch` at second `sec`: the growth over
      the quadrant at 0, 15, 30 and 45 (case 0 falls through, with a delay of
      500 ms), the flourish from 108 to the full width at 58, nothing else. */
  function SwitchBar(sec: nat): (e: seq<Effect>)
    ensures NoDigitAnimation(e)
    ensures sec in {0, 15, 30, 45} ==> e == [Animate(ProgressBar, SecondsBar(BarSpan(sec).from), SecondsBar(BarSpan(sec).till), 500, if sec == 0 then 500 else 0)]
    ensures sec == 58 ==> e == [Animate(ProgressBar, SecondsBar(108), SecondsBar(BarFull), 500, 1000)]
    ensures sec !in {0, 15, 30, 45, 58} ==> e == []
  {
    var span := BarSpan(sec);
    if sec == 0 || sec == 15 || sec == 30 || sec == 45 then
      [Animate(ProgressBar, SecondsBar(span.from), SecondsBar(span.till), 500, if sec == 0 then 500 else 0)]
    else if sec == 58 then
      [Animate(ProgressBar, SecondsBar(108), SecondsBar(BarFull), 500, 1000)]
    else []
  }

  /** The reset of the seconds bar at second 0: from the full width to nothing,
      half a second in. */
  lemma SwitchBarAtZero()
    ensures SwitchBar(0) == [Animate(ProgressBar, SecondsBar(BarFull), SecondsBar(0), 500, 500)]
  {
  }

  /** Case 0 of the switch: show the new digits, answer every owed
      animate-out in slot order, then (falling through) reset the bar. */
  function SecondZero(p: PerSlot<bool>, t: Tm): (r: Emit)
    requires Valid(t) && t.sec == 0
    ensures forall s :: !r.pending.Get(s)
    ensures forall s :: Reveals(r.effects, s, Style) == 0
    ensures forall s :: Hides(r.effects, s, Style) == (if p.Get(s) then 1 else 0)
    ensures Paired(r.effects, Style)
    ensures StartsWith(r.effects, TimeTexts(Now(t)))
    ensures EndsWith(r.effects, [Animate(ProgressBar, SecondsBar(BarFull), SecondsBar(0), 500, 500)])
    ensures r.effects == TimeTexts(Now(t)) + OutsOf(SlotOrder, p, Style) + SwitchBar(0)
  {
    var texts := TimeTexts(Now(t));
    SwitchBarAtZero();
    PayDebts(texts, p)
  }

  /** After the texts `shown`, every owed animate-out in slot order, then the
      bar reset. */
  function PayDebts(shown: seq<Effect>, p: PerSlot<bool>): (r: Emit)
    requires NoDigitAnimation(shown)
    ensures forall s :: !r.pending.Get(s)
    ensures forall s :: Reveals(r.effects, s, Style) == 0
    ensures forall s :: Hides(r.effects, s, Style) == (if p.Get(s) then 1 else 0)
    ensures Paired(r.effects, Style)
    ensures StartsWith(r.effects, shown)
    ensures EndsWith(r.effects, SwitchBar(0))
    ensures r.effects == shown + OutsOf(SlotOrder, p, Style) + SwitchBar(0)
  {
    var out := OutAll(p, SlotOrder);
    var grow := SwitchBar(0);
    OutAllEverySlot(p);
    assert out.effects == OutsOf(SlotOrder, p, Style) by {
      SlotOrderComplete();
      OutAllEffects(p, SlotOrder);
    }
    assert EndsWith(out.effects, []) by {
      assert out.effects[|out.effects|..] == [];
    }
    Emit(out.pending, Surround(shown, out.effects, grow, [], Style))
  }

  /** A pass of animateLayerOut over all four slots clears every flag and
      animates out exactly the flagged slots. */
  lemma OutAllEverySlot(p: PerSlot<bool>)
    ensures forall s :: !OutAll(p, SlotOrder).pending.Get(s)
    ensures forall s :: Hides(OutAll(p, SlotOrder).effects, s, Style) == (if p.Get(s) then 1 else 0)
    ensures forall s :: Reveals(OutAll(p, SlotOrder).effects, s, Style) == 0
    ensures Paired(OutAll(p, SlotOrder).effects, Style)
  {
    SlotOrderComplete();
    OutAllSpec(p, SlotOrder);
  }

  /** Case 59 of the switch: from 08:00 on, animate away every slot whose
      digit differs one minute later. */
  function SecondFiftyNine(p: PerSlot<bool>, t: Tm): (r: Emit)
    requires Valid(t) && t.sec == 59
    ensures forall s :: r.pending.Get(s) == (p.Get(s) || (AnimationEnabled(t) && Changes(t, s)))
    ensures forall s :: Reveals(r.effects, s, Style) == (if AnimationEnabled(t) && Changes(t, s) then 1 else 0)
    ensures forall s :: Hides(r.effects, s, Style) == 0
    ensures Paired(r.effects, Style)
    ensures AnimationEnabled(t) ==> r.effects == InsOf(SlotOrder, Differs(Next(t), Now(t)), Style)
    ensures !AnimationEnabled(t) ==> r.effects == []
  {
    SlotOrderComplete();
    InAllSpec(p, Now(t), Next(t), SlotOrder);
    InAllEffects(p, Now(t), Next(t), SlotOrder);
    NoDigitNoCounts([], Style);
    if AnimationEnabled(t) then InAll(p, Now(t), Next(t), SlotOrder) else Emit(p, [])
  }

  /** The `switch (seconds)` of tickTimerHandler. */
  function OnSecond(p: PerSlot<bool>, t: Tm): (r: Emit)
    requires Valid(t)
    ensures t.sec != 0 && t.sec != 59 ==> r.pending == p
    ensures forall s :: Reveals(r.effects, s, Style) == (if t.sec == 59 && AnimationEnabled(t) && Changes(t, s) then 1 else 0)
    ensures forall s :: Hides(r.effects, s, Style) == (if t.sec == 0 && p.Get(s) then 1 else 0)
    ensures Paired(r.effects, Style)
    ensures t.sec != 0 && t.sec != 59 ==> r.effects == SwitchBar(t.sec)
    ensures t.sec == 0 ==> StartsWith(r.effects, TimeTexts(Now(t)))
    ensures t.sec != 59 ==> EndsWith(r.effects, SwitchBar(t.sec))
    ensures t.sec == 0 ==> r.effects == TimeTexts(Now(t)) + OutsOf(SlotOrder, p, Style) + SwitchBar(0)
    ensures t.sec == 59 ==> r.effects == if AnimationEnabled(t) then InsOf(SlotOrder, Differs(Next(t), Now(t)), Style) else []
  {
    if t.sec == 0 then SecondZero(p, t)
    else if t.sec == 59 then SecondFiftyNine(p, t)
    else
      var e := SwitchBar(t.sec);
      NoDigitNoCounts(e, Style);
      assert e[|e| - |e|..] == e;
      Emit(p, e)
  }

  /** The growth of the seconds bar from nothing on the first tick. */
  function IntroBar(firstRun: bool, sec: nat): (e: seq<Effect>)
    ensures NoDigitAnimation(e)
    ensures firstRun ==> e == [Animate(ProgressBar, SecondsBar(0), SecondsBar(BarSpan(sec).till), 500, 0)]
    ensures !firstRun ==> e == []
  {
    if firstRun then [Animate(ProgressBar, SecondsBar(0), SecondsBar(BarSpan(sec).till), 500, 0)] else []
  }

  /** The date texts when the day has changed, nothing otherwise. */
  function DateUpdate(t: Tm, dayChanged: bool): (e: seq<Effect>)
    requires Valid(t)
    ensures NoDigitAnimation(e)
    ensures dayChanged ==> e == DateTexts(t)
    ensures !dayChanged ==> e == []
  {
    if dayChanged then DateTexts(t) else []
  }

  /** The bar command a second ends on; second 59 has none. */
  function SwitchTail(sec: nat): seq<Effect>
  {
    if sec != 59 then SwitchBar(sec) else []
  }

  /** The `switch` ends on the second's bar command. */
  lemma SwitchEnds(p: PerSlot<bool>, t: Tm)
    requires Valid(t)
    ensures EndsWith(OnSecond(p, t).effects, SwitchTail(t.sec))
  {
    var e := OnSecond(p, t).effects;
    if t.sec == 59 {
      assert e[|e|..] == [];
    }
  }

  /** The effects of tickTimerHandler: the first run's bar, the `switch` on
      the second, and the date texts when the day changed. */
  function TickEffects(firstRun: bool, p: PerSlot<bool>, t: Tm, dayChanged: bool): (e: seq<Effect>)
    requires Valid(t)
    ensures forall s :: Reveals(e, s, Style) == (if t.sec == 59 && AnimationEnabled(t) && Changes(t, s) then 1 else 0)
    ensures forall s :: Hides(e, s, Style) == (if t.sec == 0 && p.Get(s) then 1 else 0)
    ensures Paired(e, Style)
    ensures firstRun ==> StartsWith(e, [Animate(ProgressBar, SecondsBar(0), SecondsBar(BarSpan(t.sec).till), 500, 0)])
    ensures t.sec != 59 ==> EndsWith(e, SwitchBar(t.sec) + DateUpdate(t, dayChanged))
    ensures dayChanged ==> EndsWith(e, DateTexts(t))
  {
    SwitchEnds(p, t);
    Surround(IntroBar(firstRun, t.sec), OnSecond(p, t).effects, DateUpdate(t, dayChanged), SwitchTail(t.sec), Style)
  }

  /** tickTimerHandler. `dayChanged` is the DAY_UNIT bit of the changed units. */
  function Tick(st: State, t: Tm, dayChanged: bool): (r: Step)
    requires Valid(t)
    ensures !r.state.firstRun
    ensures r.state.lastBatteryOffset == st.lastBatteryOffset
    ensures t.sec == 0 ==> forall s :: !r.state.pending.Get(s)
    ensures t.sec == 59 ==> forall s :: r.state.pending.Get(s) == (st.pending.Get(s) || (AnimationEnabled(t) && Changes(t, s)))
    ensures t.sec != 0 && t.sec != 59 ==> r.state.pending == st.pending
    ensures forall s :: Reveals(r.effects, s, Style) == (if t.sec == 59 && AnimationEnabled(t) && Changes(t, s) then 1 else 0)
    ensures forall s :: Hides(r.effects, s, Style) == (if t.sec == 0 && st.pending.Get(s) then 1 else 0)
    ensures Paired(r.effects, Style)
    ensures st.firstRun ==> StartsWith(r.effects, [Animate(ProgressBar, SecondsBar(0), SecondsBar(BarSpan(t.sec).till), 500, 0)])
    ensures t.sec != 59 ==> EndsWith(r.effects, SwitchBar(t.sec) + DateUpdate(t, dayChanged))
    ensures dayChanged ==> EndsWith(r.effects, DateTexts(t))
  {
    Step(State(false, OnSecond(st.pending, t).pending, st.lastBatteryOffset), TickEffects(st.firstRun, st.pending, t, dayChanged))
  }

  // --------------------------------------------------------------------- runs

  datatype TickEvent = TickEvent(time: Tm, dayChanged: bool)

  predicate AllValid(ticks: seq<TickEvent>)
  {
    forall i :: 0 <= i < |ticks| ==> Valid(ticks[i].time)
  }

  /** The handler applied to a sequence of ticks, effects concatenated. */
  function Run(st: State, ticks: seq<TickEvent>): (r: Step)
    requires AllValid(ticks)
    ensures |ticks| > 0 ==> !r.state.firstRun
    ensures |ticks| == 0 ==> r == Step(st, [])
    decreases |ticks|
  {
    if |ticks| == 0 then Step(st, [])
    else
      var a := Tick(st, ticks[0].time, ticks[0].dayChanged);
      var b := Run(a.state, ticks[1..]);
      Step(b.state, a.effects + b.effects)
  }

  /** A pending flag as a number of animate-outs owed. */
  function FlagDebt(b: bool): nat
  {
    if b then 1 else 0
  }

  /** Over any sequence of ticks (in order or not, with time jumps or not), the
      animate-outs of a slot plus the debt left at the end never exceed its
      animate-ins plus the debt at the start: an animate-out only ever answers
      an animate-in, and answers it at most once. */
  lemma {:induction false} RunNeverOverAnswers(st: State, ticks: seq<TickEvent>, s: Slot)
    requires AllValid(ticks)
    ensures Hides(Run(st, ticks).effects, s, Style) + FlagDebt(Run(st, ticks).state.pending.Get(s))
         <= Reveals(Run(st, ticks).effects, s, Style) + FlagDebt(st.pending.Get(s))
    decreases |ticks|
  {
    if |ticks| > 0 {
      var a := Tick(st, ticks[0].time, ticks[0].dayChanged);
      assert AllValid(ticks[1..]) by {
        forall i | 0 <= i < |ticks[1..]| ensures Valid(ticks[1..][i].time) {
          assert ticks[1..][i] == ticks[i + 1];
        }
      }
      RunNeverOverAnswers(a.state, ticks[1..], s);
      var b := Run(a.state, ticks[1..]);
      CountConcat(a.effects, b.effects, Style);
      assert Hides(a.effects, s, Style) + FlagDebt(a.state.pending.Get(s))
          <= Reveals(a.effects, s, Style) + FlagDebt(st.pending.Get(s));
    }
  }

  /** From window creation on, no animate-out fires without an earlier
      animate-in of its slot: for every prefix of the tick sequence there are
      at most as many animate-outs as animate-ins, one fewer while one is owed. */
  lemma NoOrphanAnimateOut(ticks: seq<TickEvent>, n: nat, s: Slot)
    requires AllValid(ticks) && n <= |ticks|
    ensures AllValid(ticks[..n])
    ensures Hides(Run(Initial, ticks[..n]).effects, s, Style) + FlagDebt(Run(Initial, ticks[..n]).state.pending.Get(s))
         <= Reveals(Run(Initial, ticks[..n]).effects, s, Style)
  {
    assert AllValid(ticks[..n]) by {
      forall i | 0 <= i < n ensures Valid(ticks[..n][i].time) {
        assert ticks[..n][i] == ticks[i];
      }
    }
    RunNeverOverAnswers(Initial, ticks[..n], s);
  }

  /** Over any sequence of ticks, each slot's digit slides away exactly as
      often as its mask is revealed and slides back exactly as often as its
      mask is hidden. */
  lemma {:induction false} RunPaired(st: State, ticks: seq<TickEvent>)
    requires AllValid(ticks)
    ensures Paired(Run(st, ticks).effects, Style)
    decreases |ticks|
  {
    if |ticks| == 0 {
      NoDigitNoCounts([], Style);
    } else {
      var a := Tick(st, ticks[0].time, ticks[0].dayChanged);
      assert AllValid(ticks[1..]) by {
        forall i | 0 <= i < |ticks[1..]| ensures Valid(ticks[1..][i].time) {
          assert ticks[1..][i] == ticks[i + 1];
        }
      }
      RunPaired(a.state, ticks[1..]);
      PairedConcat(a.effects, Run(a.state, ticks[1..]).effects, Style);
    }
  }

  /** The minute boundary: a second-0 tick right after second 59 slides back
      exactly the slots that slid away (when nothing was owed before). */
  lemma SecondZeroAnswersSecond59(st: State, t59: Tm, t0: Tm, d1: bool, d2: bool, s: Slot)
    requires Valid(t59) && Valid(t0) && t59.sec == 59 && t0.sec == 0
    requires forall o :: !st.pending.Get(o)
    ensures Hides(Tick(Tick(st, t59, d1).state, t0, d2).effects, s, Style) == Reveals(Tick(st, t59, d1).effects, s, Style)
  {
  }

  /** At second 0 the new digits are on the text layers before any animation
      of the switch is scheduled (after the first run's bar growth, if any). */
  lemma SecondZeroCommitsFirst(st: State, t: Tm, dayChanged: bool)
    requires Valid(t) && t.sec == 0
    ensures Tick(st, t, dayChanged).effects[FlagDebt(st.firstRun)..FlagDebt(st.firstRun) + 5] == TimeTexts(Now(t))
  {
    var sw := OnSecond(st.pending, t);
    assert sw.effects[..5] == TimeTexts(Now(t));
    var intro := IntroBar(st.firstRun, t.sec);
    var date := DateUpdate(t, dayChanged);
    ConcatMiddle(intro, sw.effects, date, 5);
  }

  // ---------------------------------------------------------------- scenarios

  /** A last slot whose digit changes is its animateLayerIn call alone. */
  lemma InAllLast(p: PerSlot<bool>, cur: DigitSet, next: DigitSet, s: Slot)
    requires next.Get(s) != cur.Get(s)
    ensures InAll(p, cur, next, [s]) == AnimateLayerIn(p, s)
  {
    assert [s][1..] == [];
    var a := AnimateLayerIn(p, s);
    assert a.effects + [] == a.effects;
  }

  /** At 12:34 only the minute units change in the coming minute. */
  lemma InAllAt1234()
    ensures InAll(NonePending, PerSlot(1, 2, 3, 4), PerSlot(1, 2, 3, 5), SlotOrder)
         == Emit(PerSlot(false, false, false, true), AnimateIn(MinuteUnits, Style))
  {
    var cur, next := PerSlot(1, 2, 3, 4), PerSlot(1, 2, 3, 5);
    var p := NonePending;
    var r3 := [MinuteUnits];
    var r2 := [MinuteTens] + r3;
    var r1 := [HourUnits] + r2;
    assert SlotOrder == [HourTens] + r1;
    InAllLast(p, cur, next, MinuteUnits);
    assert NonePending.With(MinuteUnits, true) == PerSlot(false, false, false, true);
    InAllSkipsUnchanged(p, cur, next, MinuteTens, r3);
    InAllSkipsUnchanged(p, cur, next, HourUnits, r2);
    InAllSkipsUnchanged(p, cur, next, HourTens, r1);
  }

  /** After the first tick, on a day that does not change, a tick is its
      `switch` alone. */
  lemma TickIsSwitch(st: State, t: Tm)
    requires Valid(t) && !st.firstRun
    ensures Tick(st, t, false) == Step(State(false, OnSecond(st.pending, t).pending, st.lastBatteryOffset), OnSecond(st.pending, t).effects)
  {
    var sw := OnSecond(st.pending, t);
    assert TickEffects(false, st.pending, t, false) == [] + sw.effects + [] by {
      assert IntroBar(false, t.sec) == [] && DateUpdate(t, false) == [];
    }
    assert [] + sw.effects + [] == sw.effects;
  }

  /** 12:34:59 animates only the minute units away and leaves only its
      animate-out owed. */
  lemma ScenarioMinuteUnitsAway()
    ensures Tick(State(false, NonePending, 0), Sample(12, 34, 59), false)
         == Step(State(false, PerSlot(false, false, false, true), 0), AnimateIn(MinuteUnits, Style))
  {
    var t := Sample(12, 34, 59);
    assert Valid(t) && t.sec == 59;
    TickIsSwitch(State(false, NonePending, 0), t);
    SwitchAt59(NonePending, t);
    DigitsAt1234();
    InAllAt1234();
  }

  lemma DigitsAt1234()
    ensures Valid(Sample(12, 34, 59))
    ensures Now(Sample(12, 34, 59)) == PerSlot(1, 2, 3, 4)
    ensures Next(Sample(12, 34, 59)) == PerSlot(1, 2, 3, 5)
  {
  }

  /** From 08:00 on, second 59 is the four animateLayerIn calls. */
  lemma SwitchAt59(p: PerSlot<bool>, t: Tm)
    requires Valid(t) && t.sec == 59 && AnimationEnabled(t)
    ensures OnSecond(p, t) == InAll(p, Now(t), Next(t), SlotOrder)
  {
  }

  /** At second 0, a debt owed by the minute units alone is paid alone. */
  lemma OutAllMinuteUnits()
    ensures OutAll(PerSlot(false, false, false, true), SlotOrder) == Emit(NonePending, AnimateOut(MinuteUnits, Style))
  {
    SlotOrderSplits();
    var p := PerSlot(false, false, false, true);
    assert OutAll(p, [MinuteUnits]) == Emit(NonePending, AnimateOut(MinuteUnits, Style));
    OutAllSkipsIdle(p, MinuteTens, [MinuteUnits]);
    OutAllSkipsIdle(p, HourUnits, [MinuteTens, MinuteUnits]);
    OutAllSkipsIdle(p, HourTens, [HourUnits, MinuteTens, MinuteUnits]);
  }

  /** The tick at 12:35:00 that follows shows 12:35, slides only the minute
      units back and resets the bar. */
  lemma ScenarioMinuteUnitsBack()
    ensures Tick(State(false, PerSlot(false, false, false, true), 0), Sample(12, 35, 0), false)
         == Step(State(false, NonePending, 0),
                 TimeTexts(PerSlot(1, 2, 3, 5)) + AnimateOut(MinuteUnits, Style)
                 + [Animate(ProgressBar, SecondsBar(BarFull), SecondsBar(0), 500, 500)])
  {
    var t := Sample(12, 35, 0);
    assert Valid(t) && t.sec == 0;
    TickIsSwitch(State(false, PerSlot(false, false, false, true), 0), t);
    assert Now(t) == PerSlot(1, 2, 3, 5);
    OutAllMinuteUnits();
  }

  /** Before 08:00 second 59 does nothing, even when every digit changes. */
  lemma ScenarioQuietMorning()
    ensures Tick(State(false, NonePending, 0), Sample(7, 59, 59), false)
         == Step(State(false, NonePending, 0), [])
  {
  }

  /** The very first tick at second 37 grows the bar from 0 to 72 and nothing else. */
  lemma ScenarioFirstTick()
    ensures Tick(Initial, Sample(10, 20, 37), false).effects
         == [Animate(ProgressBar, SecondsBar(0), SecondsBar(72), 500, 0)]
  {
    var t := Sample(10, 20, 37);
    assert Valid(t) && t.sec == 37 && BarSpan(37).till == 72;
    var sw := OnSecond(Initial.pending, t).effects;
    assert sw == [];
    assert TickEffects(true, Initial.pending, t, false) == IntroBar(true, 37) + sw + [];
  }

  // ------------------------------------------------------ battery and bluetooth

  /** `144 * charge_percent / 100`: the bar width proportional to the charge. */
  function BatteryOffset(pct: nat): (w: nat)
    ensures w * 100 <= 144 * pct < w * 100 + 100
    ensures pct <= 100 ==> w <= BarFull
  {
    144 * pct / 100
  }

  /** More charge never gives a narrower bar. */
  lemma BatteryOffsetMonotone(p1: nat, p2: nat)
    requires p1 <= p2
    ensures BatteryOffset(p1) <= BatteryOffset(p2)
  {
  }

  function BatteryFrame(w: int): Rect
  {
    Rect(0, 166, w, 2)
  }

  /** batteryStateHandler: the bar moves from its last width to the new one,
      the charging icon shows while charging, the empty icon while not charging
      at 20% or less. */
  function BatteryStateHandler(st: State, pct: nat, charging: bool): (r: Step)
    ensures r.state == st.(lastBatteryOffset := BatteryOffset(pct))
    ensures |r.effects| == 3 && r.effects[0].Animate? && r.effects[0].layer == BatteryBar
    ensures r.effects[0].from == BatteryFrame(st.lastBatteryOffset)
    ensures r.effects[0].to == BatteryFrame(BatteryOffset(pct))
    ensures r.effects[0].durationMs == 500 && r.effects[0].delayMs == 0
    ensures r.effects[1] == SetVisible(ChargingIcon, charging)
    ensures r.effects[2] == SetVisible(EmptyIcon, !charging && pct <= 20)
  {
    var offset := BatteryOffset(pct);
    Step(st.(lastBatteryOffset := offset),
         [ Animate(BatteryBar, BatteryFrame(st.lastBatteryOffset), BatteryFrame(offset), 500, 0),
           SetVisible(ChargingIcon, charging),
           SetVisible(EmptyIcon, !charging && pct <= 20) ])
  }

  /** Successive battery events animate the bar without jumps: each animation
      starts at the width the previous one ended at. */
  lemma BatteryBarContinuous(st: State, p1: nat, c1: bool, p2: nat, c2: bool)
    ensures BatteryStateHandler(BatteryStateHandler(st, p1, c1).state, p2, c2).effects[0].from
         == BatteryStateHandler(st, p1, c1).effects[0].to
  {
  }

  /** The charging and the empty icon are never shown together. */
  lemma BatteryIconsExclusive(st: State, pct: nat, charging: bool)
    ensures !(SetVisible(ChargingIcon, true) in BatteryStateHandler(st, pct, charging).effects
              && SetVisible(EmptyIcon, true) in BatteryStateHandler(st, pct, charging).effects)
  {
  }

  /** From 45% to 10% while not charging: the bar shrinks from 64 to 14 pixels,
      the empty icon shows and the charging icon stays hidden. */
  lemma ScenarioBatteryLow()
    ensures BatteryStateHandler(BatteryStateHandler(Initial, 45, false).state, 10, false).effects
         == [ Animate(BatteryBar, BatteryFrame(64), BatteryFrame(14), 500, 0),
              SetVisible(ChargingIcon, false),
              SetVisible(EmptyIcon, true) ]
  {
  }

  /** bluetoothConnectionHandler: the disconnected icon shows exactly while the
      connection is lost. */
  function BluetoothConnectionHandler(connected: bool): (e: seq<Effect>)
    ensures |e| == 1 && e[0].SetVisible? && e[0].layer == BluetoothIcon
    ensures e[0].visible <==> !connected
  {
    [SetVisible(BluetoothIcon, !connected)]
  }
}
